=== FILE: README.md ===
# 3D node editor core, modelled in Dafny

This project models the core of a 3D node editor:

- **The scene.** A scene (`Scene3D`) holds an ordered list of numbered nodes and a list of lines between them. Lines are of type MATERIAL or PANER. The scene also holds a set of selected nodes and a set of selected lines, plus an undo history bounded to ten snapshots.
- **The editor operations on the scene.** These are selecting, removing, connecting the selection into a polyline, saving state, undo, and the framing box and centre.
- **The `NodeEditor3D` helpers:**
  - a new scene;
  - loading points, each tagged with one of four groups;
  - adding a node with automatic numbering;
  - moving the selected nodes.
- **The panel registry `PanelMapping`.** It hands out ids "P0001", "P0002", … and lays out the rows of its CSV export.
- **The two ways the viewer adds a PANER line.** One always appends; one appends only when the pair is not yet joined.
- **The classifier of the text front end's command loop.**

Nodes, lines, the scene, the editor and the panel registry are classes whose methods update their fields in place. Nodes, lines, the scene and the panel registry each have a `Valid()` invariant; the editor has none of its own and states its methods against its scene's:

- **Node:** the position is the data point's coordinates, and the colour agrees with the selection flag.
- **Line:** the colour agrees with the type and the selection flag.
- **Scene:** no node or line is listed twice, and every line joins listed nodes. A listed node or line carries the selection flag exactly when it is in the matching selection set, and each listed node and line is valid. The history is at most ten snapshots, and every line of a snapshot refers to saved node numbers.
- **Panel registry:** entry `i` carries id `P` + `i + 1`, and the counter is one past the number of entries.

Snapshots, line records, commands and panel rows are datatypes. The string helpers (strip, lower, split, decimal and zero-padded formatting) and the geometry (bounding box, mean) are pure functions.

Modules, one per file:

- `Lists` (lists.dfy)
- `Text` (text.dfy)
- `Geometry` (geometry.dfy)
- `DataStructures` (data_structures.dfy)
- `Snapshots` (snapshots.dfy)
- `SceneLists` (scene_lists.dfy)
- `SceneManager` (scene.dfy)
- `Editor` (editor.dfy)
- `Panels` (panels.dfy)
- `PanerLines` (paner_lines.dfy)
- `Commands` (commands.dfy)

Coordinates are exact reals and integers are unbounded. Colours are the five named RGBA values the code uses.

## Model

| member | source | states |
|---|---|---|
| Text.Strip | main.py:147 | the stripped line has no leading or trailing whitespace and is no longer than the input |
| Text.StripInfix | main.py:147 | stripping keeps one contiguous infix of the input and drops only whitespace before and after it |
| Text.StripStripped | main.py:147 | a string without surrounding whitespace is left unchanged by stripping |
| Text.Lower | main.py:147 | lower-casing keeps the length and maps each character by itself, capitals to small letters, the rest unchanged |
| Text.LowerKeepsStripped | main.py:147 | lower-casing a stripped line leaves it stripped |
| Text.LowerIdempotent | main.py:147 | lower-casing twice is lower-casing once |
| Text.StripKeepsNoCapitals | main.py:147 | stripping a line without capitals leaves none |
| Text.Split | main.py:161 | every token `split()` returns is non-empty and free of whitespace |
| Text.SplitWord | main.py:161 | a non-empty word without whitespace splits into itself alone |
| Text.SplitAtSpace | main.py:161 | splitting at any whitespace character is splitting the two sides separately, so each token is a maximal run of non-whitespace characters |
| Text.SplitKeepsText | main.py:161 | gluing the tokens back together gives exactly the non-whitespace characters of the input, in order |
| Text.Digits | src/data_structures.py:57 | the decimal text of a natural number is a non-empty string of digits |
| Text.DigitsValue | src/data_structures.py:57 | the decimal text of `n` denotes `n` again |
| Text.DigitsFit | main.py:30 | a number below `10^k` has at most `k` decimal digits |
| Text.ZeroPad | main.py:30 | zero padding reaches the width (longer text is kept whole), ends with the original text and adds only '0' characters |
| Text.PaddedDigitsValue | main.py:30 | zero-padded decimal text still denotes the number |
| Text.IntToStringValue | src/data_structures.py:57 | `str(n)` starts with '-' exactly for negative `n`, and the digits give back the magnitude |
| Text.IntToStringInjective | src/data_structures.py:57 | two integers have the same decimal text exactly when they are equal |
| Text.IntToStringNoUnderscore | src/data_structures.py:92 | the decimal text of an integer never holds '_' |
| Text.SeparatorSplits | src/data_structures.py:92 | two texts joined by '_', the first without '_', determine both parts |
| Geometry.MinCorner | src/scene_manager.py:214 | the componentwise minimum is below every point and is attained on each axis |
| Geometry.MaxCorner | src/scene_manager.py:215 | the componentwise maximum is above every point and is attained on each axis |
| Geometry.SceneBounds | src/scene_manager.py:208-224 | empty scene: the unit box; otherwise the tight box, which contains every point, unless some axis spans less than 0.1, in which case every axis becomes a width-1 interval around the tight box's centre |
| Geometry.FlatPairCorners | src/scene_manager.py:213-215 | the tight corners of the two-node example are (0,0,0) and (100,0,0) |
| Geometry.SceneBoundsCanExcludeNode | src/scene_manager.py:218-222 | as written, the framing box of nodes (0,0,0) and (100,0,0) contains neither node |
| Geometry.FramingBounds | src/scene_manager.py:208-224 | the corrected framing box of an empty scene is the unit box |
| Geometry.FramingBoundsAgreeWhenWide | src/scene_manager.py:213-224 | when no axis spans less than 0.1, the corrected box and the box as written are both the tight box |
| Geometry.AxisRangeCovers | src/scene_manager.py:218-222 | widening one axis keeps its interval around the points and at least 0.1 wide, keeps its centre, makes it exactly 1 wide when thinner than 0.1 and leaves a wider axis as it is |
| Geometry.FramingBoundsContainAll | src/scene_manager.py:208-224 | the corrected framing box contains every node and is at least 0.1 wide on every axis |
| Geometry.FramingBoundsShape | src/scene_manager.py:213-222 | for a non-empty scene the corrected box has the tight box's centre, and on each axis the tight width, or width 1 where the tight width is below 0.1 |
| Geometry.FramedShape | src/scene_manager.py:218-222 | the box framed from two corners has their centre and the per-axis framed widths |
| Geometry.SinglePointFraming | src/scene_manager.py:218-222 | a single node is framed by the box reaching 0.5 from it on each axis |
| Geometry.MeanBetween | src/scene_manager.py:232 | bounds that hold for every point hold for their mean |
| Geometry.Mean | src/scene_manager.py:226-232 | the mean of no positions is the origin; the mean of the node positions lies within their tight bounding box |
| DataStructures.ParseLineType | src/data_structures.py:39-42 | `LineType(value)` succeeds exactly for "material" and "paner" |
| DataStructures.TypeValueRoundTrip | src/data_structures.py:39-42 | a type written as its value text and looked up again is the same type, and the two types have different texts |
| DataStructures.LineColor | src/data_structures.py:102-110 | a line is cyan exactly when selected; otherwise it is red for MATERIAL and green for PANER |
| DataStructures.TypePrefixUnique | src/data_structures.py:90-92 | no line name starts with both types' prefixes, so a name tells the line's type |
| DataStructures.LineNameInjective | src/data_structures.py:90-92 | two line names are equal exactly when type, start number and end number all are |
| DataStructures.EndNumbersInjective | src/data_structures.py:90-92 | the numbers part `start_end` of a line name gives back both numbers |
| DataStructures.Node3D.constructor | src/data_structures.py:47-53 | a new node carries the data point, sits at its coordinates, is unselected, visible, white and in group 0 |
| DataStructures.Node3D.Name | src/data_structures.py:55-57 | a node's name starts with "dataPoint_" |
| DataStructures.Node3D.NumberInName | src/data_structures.py:55-61 | the number is the one the node's name spells after "dataPoint_": a '-' there exactly for a negative number, the digits its magnitude |
| DataStructures.Node3D.NameIdentifies | src/data_structures.py:55-61 | two nodes have the same name exactly when they have the same number |
| DataStructures.Node3D.SetSelected | src/data_structures.py:63-69 | sets the flag and the matching colour (yellow or white) and changes nothing else |
| DataStructures.Node3D.UpdatePosition | src/data_structures.py:71-76 | the data point and the position take the new coordinates; the number, flag, colour, visibility and group are kept |
| DataStructures.Line3D.constructor | src/data_structures.py:81-88 | a new line joins the two nodes with the given type; it is unselected, visible, has no groups and has its type colour |
| DataStructures.Line3D.Name | src/data_structures.py:90-92 | a line's name starts with its type's value and "_line_" |
| DataStructures.Line3D.NameIdentifies | src/data_structures.py:90-92 | two lines have the same name exactly when they have the same type and the same start and end numbers |
| DataStructures.Line3D.StartPos | src/data_structures.py:94-96 | the start position is read live from the start node; for a consistent node it is the node's data point |
| DataStructures.Line3D.EndPos | src/data_structures.py:98-100 | the end position is read live from the end node; for a consistent node it is the node's data point |
| DataStructures.Line3D.UpdateColor | src/data_structures.py:102-110 | the colour becomes the one the type and the flag call for; nothing else changes |
| DataStructures.Line3D.SetSelected | src/data_structures.py:112-115 | sets the flag and recomputes the colour |
| Snapshots.KeepResolvable | src/scene_manager.py:194-203 | the recreated line records are exactly the saved ones whose two endpoint numbers are present |
| Snapshots.KeepResolvableAppend | src/scene_manager.py:194-203 | one more saved line adds itself to the recreated lines exactly when it resolves |
| Snapshots.LastNumberedStep | src/scene_manager.py:184-187 | one more saved entry is the last with its number, and an earlier entry stays last exactly when the new one carries another number |
| Snapshots.LastNumberedOf | src/scene_manager.py:184-187 | every saved number has a last entry carrying it |
| Snapshots.Restore | src/scene_manager.py:173-206 | undo rebuilds the same node records and a closed set of lines |
| Snapshots.RestoreClosed | src/scene_manager.py:173-206 | restoring a snapshot whose lines all resolve gives back that very snapshot |
| Snapshots.Push | src/scene_manager.py:167-171 | saving appends the snapshot last and keeps the newest ten entries of a history of at most ten |
| Snapshots.NewestAppend | src/scene_manager.py:167-171 | taking the newest entries commutes with appending one more |
| Snapshots.PushAllKeepsNewest | src/scene_manager.py:167-171 | after any number of saves the history is exactly the newest ten of everything saved, oldest first |
| Snapshots.FifteenSavesKeepTen | src/scene_manager.py:170-171 | fifteen saves into an empty history leave the last ten |
| Lists.ExcludeMembers | src/scene_manager.py:59-60 | removing a set of elements keeps exactly the other elements |
| Lists.RemoveFirst | src/scene_manager.py:60 | `list.remove(x)` shortens the list by one when `x` is present and leaves it unchanged otherwise |
| Lists.RemoveFirstDistinct | src/scene_manager.py:67 | in a list without repeats, `list.remove(x)` is removing every occurrence of `x` |
| Lists.ExcludeDistinct | src/scene_manager.py:51-67 | removals keep a list without repeats free of repeats |
| Lists.ExcludeTwice | src/scene_manager.py:76-78 | removing in two rounds is removing the union once |
| SceneLists.Touching | src/scene_manager.py:55-58 | `lines_to_remove` holds exactly the lines with an endpoint among the removed nodes |
| SceneLists.UntouchedMembers | src/scene_manager.py:55-60 | the lines that survive are exactly those touching none of the removed nodes |
| SceneLists.EndpointsAfterRemoval | src/scene_manager.py:51-67 | after the cascade, every surviving line joins two surviving nodes |
| SceneLists.ExcludeTouching | src/scene_manager.py:59-60 | removing the touching lines one by one leaves the untouched lines in order |
| SceneLists.UntouchedNothing | src/scene_manager.py:55-58 | removing no nodes removes no lines |
| SceneLists.UntouchedTwice | src/scene_manager.py:76-78 | cascading two node removals one after the other is cascading their union once |
| SceneLists.UntouchedDistinct | src/scene_manager.py:59-60 | the surviving lines have no repeats when the original list had none |
| SceneLists.NodeRecordsAt | src/scene_manager.py:150-156 | the saved node entry `i` is node `i`'s data point and selection flag |
| SceneLists.LineRecordsAt | src/scene_manager.py:157-164 | the saved line entry `i` is line `i`'s endpoint numbers and type |
| SceneLists.LineRecordsUnchanged | src/scene_manager.py:157-164 | the saved line entries depend only on the endpoint nodes |
| SceneLists.NumberMapKeys | src/scene_manager.py:183-187 | the keys of `node_map` are exactly the saved numbers |
| SceneLists.NumberMapLast | src/scene_manager.py:183-187 | `node_map` sends each saved number to the node of the last saved entry with that number |
| SceneLists.LastMapNumbers | src/scene_manager.py:183-187 | every node `node_map` holds is listed and carries its key |
| SceneLists.EndsAtLastNumbered | src/scene_manager.py:194-203 | a line built from `node_map` lookups joins, at a shared number, the node of the last saved entry |
| SceneLists.RecordsClosed | src/scene_manager.py:150-164 | when every line joins listed nodes, every saved line refers to saved node numbers |
| SceneLists.PositionsAt | src/scene_manager.py:213 | the position list holds node `i`'s position at index `i` |
| SceneLists.InsertByNumber | src/scene_manager.py:130-131 | inserting by number adds exactly the one node |
| SceneLists.InsertKeepsSorted | src/scene_manager.py:130-131 | insertion keeps a list sorted by node number |
| SceneLists.InsertKeepsDistinct | src/scene_manager.py:130-131 | inserting a new node keeps the list free of repeats |
| SceneLists.Ends | src/scene_manager.py:136 | the endpoint pairs of the lines, one per line, in list order |
| SceneLists.EndsAppend | src/scene_manager.py:48 | appending a line appends its endpoint pair |
| SceneLists.PolylineShape | src/scene_manager.py:134-142 | two nodes give one line; `k >= 3` nodes give `k` lines joining each node to the next, the last back to the first |
| SceneLists.PolylineWithin | src/scene_manager.py:134-142 | every connecting line joins two of the connected nodes |
| SceneManager.TallyRemove | src/scene_manager.py:243-248 | the summed position and the multiset of numbers of a node set do not depend on the order of the visit |
| SceneManager.InsertInt | src/scene_manager.py:248 | inserting a number adds exactly that number |
| SceneManager.InsertIntSorted | src/scene_manager.py:248 | insertion keeps a number list sorted |
| SceneManager.DeselectNodes | src/scene_manager.py:100-101 | every node of the set ends unselected and white, its data otherwise untouched |
| SceneManager.DeselectLines | src/scene_manager.py:102-103 | every line of the set ends unselected in its type colour, visibility and groups kept |
| SceneManager.SortByNumber | src/scene_manager.py:130-131 | `sorted(..., key=number)` lists each selected node exactly once, ascending by number |
| SceneManager.Scene3D.State | src/scene_manager.py:150-164 | the snapshot holds one entry per node and per line, and for a valid scene every saved line refers to saved node numbers |
| SceneManager.Scene3D.constructor | src/scene_manager.py:17-30 | a new scene is empty, with no history, grid and axes shown, numbers hidden, grid 20 with spacing 1 |
| SceneManager.Scene3D.Clear | src/scene_manager.py:32-37 | nodes, lines and both selections become empty; the history is kept |
| SceneManager.Scene3D.AddNode | src/scene_manager.py:39-43 | appends a fresh unselected node for the point; nothing else changes |
| SceneManager.Scene3D.AddLine | src/scene_manager.py:45-49 | appends a fresh unselected, visible, groupless line of the type between the two nodes, in its type colour; nothing else changes |
| SceneManager.Scene3D.RemoveNode | src/scene_manager.py:51-67 | a node not in the scene changes nothing; otherwise the node leaves the list and the selection, and exactly the lines touching it are removed, in order |
| SceneManager.Scene3D.DropNode | src/scene_manager.py:62-67 | the node leaves the list and the selection |
| SceneManager.Scene3D.RemoveLinesTouching | src/scene_manager.py:55-60 | the removal loop leaves exactly the lines not touching the node, in order |
| SceneManager.Scene3D.SaveState | src/scene_manager.py:147-171 | the history becomes `Push` of the old history and the current state; the scene is unchanged |
| SceneManager.Scene3D.RemoveSelectedNodes | src/scene_manager.py:69-78 | with nothing selected nothing changes; otherwise the state is saved once, and the selected nodes and every line touching them are removed |
| SceneManager.Scene3D.RemoveNodes | src/scene_manager.py:76-78 | removing each selected node in turn leaves the other nodes and the untouched lines, in order |
| SceneManager.Scene3D.SelectNode | src/scene_manager.py:80-90 | a plain click makes `node` the only selection, clears the line selection and leaves each formerly selected line unflagged in its type colour; an added click toggles `node` alone and leaves every line's flag and colour; visibility and groups are kept |
| SceneManager.Scene3D.Select | src/scene_manager.py:89-90 | an unselected node joins the selection and is flagged |
| SceneManager.Scene3D.SelectAllNodes | src/scene_manager.py:92-96 | the selection becomes exactly the listed nodes, all flagged |
| SceneManager.Scene3D.ClearSelection | src/scene_manager.py:98-106 | both selections become empty and every node and every formerly selected line is unflagged, in its plain colour, visibility and groups kept |
| SceneManager.Scene3D.SelectNodesInRegion | src/scene_manager.py:108-119 | the selection becomes exactly the nodes inside the closed box, the line selection is cleared, and each formerly selected line ends unflagged in its type colour with its visibility and groups kept |
| SceneManager.Scene3D.SelectIfInRegion | src/scene_manager.py:113-119 | one pass of the region loop adds node `i` exactly when it is inside the box |
| SceneManager.Scene3D.ConnectSelectedNodes | src/scene_manager.py:121-145 | fewer than two selected nodes: false and nothing changes; otherwise the state is saved once and the new lines form the polyline through the selected nodes in number order, each of the type, unselected, visible and groupless |
| SceneManager.Scene3D.AddLines | src/scene_manager.py:135-142 | one new line of the type per pair, appended in order, each unselected, visible and groupless |
| SceneManager.Scene3D.RestoreNodes | src/scene_manager.py:183-191 | the node loop of undo recreates the saved nodes in order with their flags, and maps each saved number to the node restored from the last saved entry with that number, a listed node carrying it |
| SceneManager.Scene3D.RecreateNodes | src/scene_manager.py:183-191 | node `j` is recreated, unselected or reselected as saved, from saved entry `j`; the map is filled in saved order, a later entry overwriting an earlier one with the same number |
| SceneManager.Scene3D.RestoreNode | src/scene_manager.py:185-191 | appends a node for the saved point and reselects it when it was saved selected |
| SceneManager.Scene3D.RestoreLines | src/scene_manager.py:194-203 | the line loop of undo recreates exactly the saved lines whose two endpoint numbers are mapped, in saved order, each unselected, visible and groupless and joining the nodes the map gives for its numbers |
| SceneManager.Scene3D.RestoreLine | src/scene_manager.py:195-203 | one saved line is recreated, unselected, visible and groupless, between the nodes the map gives for its numbers, exactly when both endpoint numbers are mapped |
| SceneManager.Scene3D.Undo | src/scene_manager.py:173-206 | empty history: false and nothing changes; otherwise the newest snapshot is popped, the scene's state equals it again, every line is unselected, visible and groupless, and where saved nodes share a number every line at that number attaches to the node of the last of them |
| SceneManager.Scene3D.GetBounds | src/scene_manager.py:208-224 | the unit box for an empty scene; otherwise a box that contains every node, has the centre of the nodes' tight box and on each axis the tight width, or width 1 where that is below 0.1 (the corrected widening, see Findings); where no axis is thinner than 0.1 it is exactly the box the code computes |
| SceneManager.Scene3D.GetCenter | src/scene_manager.py:226-232 | the origin for an empty scene, else a point within the nodes' bounding box |
| SceneManager.Scene3D.GetSelectedInfo | src/scene_manager.py:234-254 | the count is the number of selected nodes; the numbers are exactly theirs (as a multiset), sorted; the average is the origin when nothing is selected, else their summed position divided by their count |
| Editor.GroupSize | src/scene_manager.py:279 | the group size is at least 1, exactly 1 below four points, else the floor of a quarter |
| Editor.GroupOf | src/scene_manager.py:289 | the group is at most 3; it starts at or before the point, and a group below 3 ends after it |
| Editor.DivisionRange | src/scene_manager.py:289 | `index // g == q` exactly when `q * g <= index < q * g + g` |
| Editor.GroupOfRange | src/scene_manager.py:289 | groups 0 to 2 are consecutive runs of `group_size` points; group 3 is everything after them |
| Editor.GroupOfMonotone | src/scene_manager.py:289 | a later point is never in an earlier group |
| Editor.EveryGroupUsed | src/scene_manager.py:279-289 | with at least four points every group 0 to 3 receives a point |
| Editor.SmallLoadOneGroupEach | src/scene_manager.py:279-289 | with at most four points, point `i` is in group `i` |
| SceneLists.NumbersOf | src/scene_manager.py:326 | the existing numbers, one per node, in list order |
| Editor.MaxOf | src/scene_manager.py:327 | `max` is an element of the list and no element exceeds it |
| Editor.NextNumber | src/scene_manager.py:325-327 | the automatic number exceeds every existing number; it is 1 for an empty scene and otherwise one past an existing number |
| Editor.NodeEditor3D.constructor | src/scene_manager.py:260-265 | a new editor has an empty scene and zero counters |
| Editor.NodeEditor3D.NewScene | src/scene_manager.py:267-271 | the scene and its undo history become empty |
| Editor.NodeEditor3D.LoadCsv | src/scene_manager.py:273-311 | a failed read changes nothing and reports false; otherwise the counters are set and the scene holds exactly the points in order, unselected, each in its group, with the history kept |
| Editor.NodeEditor3D.AddGroupedNode | src/scene_manager.py:289-296 | appends a node for the point and tags it with the group |
| Editor.NodeEditor3D.AddNodeAtPosition | src/scene_manager.py:322-334 | appends an unselected node, visible and in group 0, at the position with the given number, or with a number above every existing one |
| Editor.NodeEditor3D.MoveSelectedNodes | src/scene_manager.py:336-347 | with nothing selected nothing changes; otherwise the state is saved once, exactly the selected nodes move by the offset, numbers, flags, visibility and groups are kept, and every line's end on a moved node moves with it |
| Editor.NodeEditor3D.MoveNode | src/scene_manager.py:343-345 | the node moves by the offset and keeps its number, flag, visibility and group |
| Panels.PanelId | main.py:30 | a panel id is "P" followed by at least four characters |
| Panels.PanelIdValue | main.py:30 | the digits after "P" denote the counter value |
| Panels.PanelIdShape | main.py:30 | below 10000 the id is exactly "P" and four digits |
| Panels.PanelIdInjective | main.py:30 | different counter values give different ids |
| Panels.FirstPanelIds | main.py:30 | the counter values 1 and 12 give "P0001" and "P0012" |
| Panels.Put | main.py:31-36 | dict assignment keeps the size for an existing key and grows it by one for a new key |
| Panels.PutNew | main.py:31-36 | assigning a new key appends the entry last and leaves the others alone |
| Panels.PutExisting | main.py:31-36 | assigning an existing key replaces its value in place |
| Panels.NumberedAppend | main.py:30-37 | adding the next id at the end keeps entry `i` under id `P` + `i + 1` |
| Panels.NextIdFresh | main.py:30-37 | the id the counter hands out next is not yet in the registry |
| Panels.NumberedDistinct | main.py:30-37 | the registry's ids are all different |
| Panels.Row | main.py:47-53 | an entry has a row exactly when it has at least four node numbers; the row has the header's seven cells and starts with the id |
| Panels.RowLayout | main.py:47-53 | under the header's columns come the first four node numbers, the type and the group |
| Panels.RowUsesFirstFour | main.py:48-51 | node numbers past the fourth never reach the export |
| Panels.WrittenUpTo | main.py:47-53 | the export writes one row per entry, in order, up to the first entry without four nodes |
| Panels.WrittenRows | main.py:44-53 | rows collected up to the first short entry are the header followed by `Written` |
| Panels.ExportListsIdsInOrder | main.py:40-53 | a complete export of a counter-built registry lists "P0001", "P0002", … in order, one full row each |
| Panels.PanelMapping.constructor | main.py:24-26 | a new registry is empty with the counter at 1 |
| Panels.PanelMapping.AddPanel | main.py:28-38 | returns the counter's id, which is new; the registry grows by exactly this entry at the end and the counter moves on by one |
| Panels.PanelMapping.ToCsv | main.py:40-53 | the rows are the header followed by the entries' rows in order, up to the first short entry; the export is complete exactly when every entry has four nodes |
| PanerLines.AddIfAbsent | main.py:2508-2528 | afterwards the two nodes are joined in both directions; the list grows by one exactly when they were not joined |
| PanerLines.AddIfAbsentExtends | main.py:2508-2528 | earlier lines are never touched |
| PanerLines.AddIfAbsentIdempotent | main.py:2508-2528 | asking again for the same two nodes, in either order, changes nothing |
| PanerLines.AddIfAbsentKeepsNoDuplicates | main.py:2508-2528 | a line list in which no two lines join the same nodes keeps that property |
| PanerLines.CreatePanerLine | main.py:2565-2571 | appends a fresh PANER line from the first node to the second, unselected, visible and groupless, whatever already exists |
| PanerLines.CreatePanerLineSafe | main.py:2508-2528 | returns nothing and changes nothing exactly when some line joins the two nodes in either direction; otherwise appends one fresh PANER line, unselected, visible and groupless; the endpoint pairs become `AddIfAbsent` of the old ones |
| Commands.Normalize | main.py:147 | the normalized line has no surrounding whitespace and no capitals |
| Commands.NormalizeIdempotent | main.py:147 | normalizing twice is normalizing once |
| Commands.Interpret | main.py:149-210 | `add` always carries three tokens and `select box` six, none empty or containing whitespace; load and save paths are stripped, and free of capitals when the line is |
| Commands.Classify | main.py:147-210 | a raw input line is classified by its normalized text; a load or save path is stripped and free of capitals |
| Commands.ClassifyNormalized | main.py:147 | case and surrounding whitespace never change the command |
| Commands.KeywordHeads | main.py:152-186 | the command prefixes differ in their first characters |
| Commands.ExactCommands | main.py:149-199 | quit, select all, delete, undo and info are recognised exactly when the line is that text |
| Commands.OtherSelectUnknown | main.py:168-181 | a line starting "select " that is neither "select all" nor "select box …" is unknown |
| Commands.AddArguments | main.py:160-166 | `add` takes the tokens after "add ", and gives the usage message unless there are three |
| Commands.SelectBoxArguments | main.py:173-183 | `select box` takes the six tokens after the prefix, else the usage message |
| Commands.ConnectArgument | main.py:185-192 | `connect` links MATERIAL or PANER for exactly "material" or "paner" after stripping, and gives the usage message otherwise |
| Commands.UsageOnlyForKnownWords | main.py:160-192 | a usage message appears only for an add, select box or connect line |

## Left out

- Rendering, the GUI, printing, `CameraView` and the display settings beyond their initial values: they do not affect the modelled state.
- File I/O:
  - `load_csv` takes what the CSV reader returned as an `Option` parameter, where `None` stands for the caught exception. The reader (src/csv_handler.py) is not part of this model.
  - `save_csv` (a call into the CSV writer) is not modelled.
  - `PanelMapping.to_csv` returns the rows it would hand to the writer.
  - The model does not cover the writer's text encoding: `str()` of cells, quoting and line endings.
- The file that `to_csv` leaves partly written when an entry has fewer than four nodes: the model reports `complete == false` and the rows written before that entry.
- The panel dict is an ordered sequence of (id, info) entries, which is how a Python dict iterates.
- `deepcopy` in `save_state`: snapshots are immutable values here.
- Shared `DataPoint` objects: `DataPoint` is a value here, held by its node. `update_position` in the source writes the new coordinates into the `DataPoint` object itself, so a caller that still holds the object passed to `add_node` sees them change. The model does not capture that aliasing: only the node's own data point changes.
- DataStructures.Node3D.Number: carries no contract of its own, since it only reads the data point's number. `Node3D.NumberInName` and `Node3D.NameIdentifies` state how it relates to the node's name.
- numpy float arithmetic: coordinates are exact reals, so rounding is not modelled. `get_center` is stated as lying within the nodes' bounding box. `get_selected_info`'s average is the exact sum divided by the count.
- Unicode: whitespace and case folding cover ASCII only.
- `interactive_mode`:
  - The model covers the classification of a line.
  - It does not cover the `float()` conversion of the coordinate tokens, whose failure the loop catches and prints.
  - It does not cover the dispatch of a command to the editor.
- SceneManager.Scene3D.Undo: freshness of the recreated nodes and lines is not stated.
- SceneManager.Scene3D.ConnectSelectedNodes: the node order and the created lines are ghost results, and their freshness is not stated.
- SceneManager.Scene3D.GetBounds: returns the corrected box, in which each thin axis is widened on its own (see Findings). The box as written is `Geometry.SceneBounds`.
- PanerLines.CreatePanerLine: requires both nodes to be in the scene, which the source does not check. The scene invariant (every line joins listed nodes) needs it, and every caller passes nodes of the scene.
- PanerLines.CreatePanerLineSafe: requires both nodes to be in the scene, for the same reason.
- SceneManager.Scene3D.AddLine: requires both nodes to be in the scene, for the same reason.
- SceneManager.Scene3D.SelectNode: requires the node to be in the scene, which keeps the selection a subset of the nodes.
- `load_mgb`, `load_elements_csv` and the rest of main.py's viewer are not part of this model.

## Findings

| source | as written | input that shows it | evidently intended | confidence | as-written member | corrected member |
|---|---|---|---|---|---|---|
| src/scene_manager.py:218-222 | when ANY axis of the node box spans less than 0.1, ALL three axes are replaced by `center -/+ 0.5` | nodes at (0,0,0) and (100,0,0): the box becomes x in [49.5, 50.5], which holds neither node | widen only the thin axes, so the framing box still contains every node | not executed | Geometry.SceneBoundsCanExcludeNode | Geometry.FramingBoundsContainAll |

=== FILE: commands.dfy ===
/** How the text front end reads one input line: trim and lower-case it, then
    pick the first matching command in a fixed order, or a usage error when a
    command has the wrong number of arguments, or "unknown". */
module Commands {
  import opened Text
  import opened DataStructures

  /** The three usage messages. */
  datatype UsageError = AddUsage | SelectBoxUsage | ConnectUsage

  /** What a line asks for. Coordinates stay the tokens the line held. */
  datatype Command =
    | Quit
    | Load(path: string)
    | Save(path: string)
    | Add(coords: seq<string>)
    | SelectAll
    | SelectBox(coords: seq<string>)
    | Connect(lineType: LineType)
    | Delete
    | Undo
    | Info
    | Usage(error: UsageError)
    | Unknown

  /** `input().strip().lower()`: no surrounding whitespace and no capitals. */
  function Normalize(raw: string): (c: string)
    ensures Stripped(c) && |c| <= |raw|
    ensures NoCapitals(c)
  {
    LowerKeepsStripped(Strip(raw));
    Lower(Strip(raw))
  }

  /** Normalizing a normalized line changes nothing. */
  lemma NormalizeIdempotent(raw: string)
    ensures Normalize(Normalize(raw)) == Normalize(raw)
  {
    var c := Normalize(raw);
    StripStripped(c);
    LowerIdempotent(Strip(raw));
  }

  /** The branch chain on a normalized line, in the order the loop tests it.
      Coordinates always come as exactly three (add) or six (select box)
      non-empty tokens without whitespace, and a path is trimmed. */
  function Interpret(c: string): (cmd: Command)
    ensures cmd.Add? ==> |cmd.coords| == 3
    ensures cmd.SelectBox? ==> |cmd.coords| == 6
    ensures cmd.Add? || cmd.SelectBox? ==> forall w :: w in cmd.coords ==> w != [] && NoSpace(w)
    ensures cmd.Load? || cmd.Save? ==> Stripped(cmd.path)
    ensures cmd.Load? || cmd.Save? ==> NoCapitals(c) ==> NoCapitals(cmd.path)
  {
    if c == "quit" then Quit
    else if HasPrefix(c, "load ") then
      StripKeepsNoCapitals(c[5..]);
      Load(Strip(c[5..]))
    else if HasPrefix(c, "save ") then
      StripKeepsNoCapitals(c[5..]);
      Save(Strip(c[5..]))
    else if HasPrefix(c, "add ") then
      var parts := Split(c[4..]);
      if |parts| == 3 then Add(parts) else Usage(AddUsage)
    else if c == "select all" then SelectAll
    else if HasPrefix(c, "select box ") then
      var parts := Split(c[11..]);
      if |parts| == 6 then SelectBox(parts) else Usage(SelectBoxUsage)
    else if HasPrefix(c, "connect ") then
      match ParseLineType(Strip(c[8..]))
      case Some(t) => Connect(t)
      case None => Usage(ConnectUsage)
    else if c == "delete" then Delete
    else if c == "undo" then Undo
    else if c == "info" then Info
    else Unknown
  }

  /** The command an input line stands for. A path is cut from the
      lower-cased line, so it holds no capital letter whatever was typed. */
  function Classify(raw: string): (cmd: Command)
    ensures cmd.Load? || cmd.Save? ==> Stripped(cmd.path) && NoCapitals(cmd.path)
  {
    Interpret(Normalize(raw))
  }

  /** Case and surrounding whitespace never matter. */
  lemma ClassifyNormalized(raw: string)
    ensures Classify(Normalize(raw)) == Classify(raw)
  {
    NormalizeIdempotent(raw);
  }

  /** The leading characters each command prefix fixes; they tell the
      prefixes apart. */
  lemma KeywordHeads(c: string)
    ensures HasPrefix(c, "load ") ==> c[0] == 'l'
    ensures HasPrefix(c, "save ") ==> c[0] == 's' && c[1] == 'a'
    ensures HasPrefix(c, "add ") ==> c[0] == 'a'
    ensures HasPrefix(c, "select box ") ==> c[0] == 's' && c[1] == 'e'
    ensures HasPrefix(c, "connect ") ==> c[0] == 'c'
  {
    if HasPrefix(c, "load ") { assert c[..5][0] == 'l'; }
    if HasPrefix(c, "save ") { assert c[..5][0] == 's' && c[..5][1] == 'a'; }
    if HasPrefix(c, "add ") { assert c[..4][0] == 'a'; }
    if HasPrefix(c, "select box ") { assert c[..11][0] == 's' && c[..11][1] == 'e'; }
    if HasPrefix(c, "connect ") { assert c[..8][0] == 'c'; }
  }

  // The lemmas below are about `Interpret(c)` for a normalized line `c`;
  // `Classify(raw)` is `Interpret(Normalize(raw))`.

  /** The one-word commands and "select all" are recognised exactly when the
      line is that text and nothing else. */
  lemma ExactCommands(c: string)
    ensures Interpret(c) == Quit <==> c == "quit"
    ensures Interpret(c) == SelectAll <==> c == "select all"
    ensures Interpret(c) == Delete <==> c == "delete"
    ensures Interpret(c) == Undo <==> c == "undo"
    ensures Interpret(c) == Info <==> c == "info"
  {
    KeywordHeads(c);
  }

  /** "select all" is an exact match checked before the "select box " prefix;
      any other line starting with "select " is unknown. */
  lemma OtherSelectUnknown(c: string)
    requires HasPrefix(c, "select ")
    requires c != "select all" && !HasPrefix(c, "select box ")
    ensures Interpret(c) == Unknown
  {
    KeywordHeads(c);
    assert c[..7][0] == 's' && c[..7][1] == 'e';
  }

  /** `add` takes its coordinates from the tokens after "add ", and gives the
      usage message unless there are exactly three. */
  lemma AddArguments(c: string)
    requires HasPrefix(c, "add ")
    ensures var parts := Split(c[4..]);
            Interpret(c) == if |parts| == 3 then Add(parts) else Usage(AddUsage)
  {
    KeywordHeads(c);
  }

  /** `select box` takes six tokens, else the usage message. */
  lemma SelectBoxArguments(c: string)
    requires HasPrefix(c, "select box ")
    ensures var parts := Split(c[11..]);
            Interpret(c) == if |parts| == 6 then SelectBox(parts) else Usage(SelectBoxUsage)
  {
    KeywordHeads(c);
    assert c != "select all" by {
      assert |c| >= 11;
    }
  }

  /** `connect` accepts only the two type names, in any case, and gives the
      usage message for anything else. */
  lemma ConnectArgument(c: string)
    requires HasPrefix(c, "connect ")
    ensures var arg := Strip(c[8..]);
            && (Interpret(c) == Connect(Material) <==> arg == "material")
            && (Interpret(c) == Connect(Paner) <==> arg == "paner")
            && (Interpret(c) == Usage(ConnectUsage) <==> arg != "material" && arg != "paner")
  {
    KeywordHeads(c);
    assert c[..8][0] == 'c';
  }

  /** A usage error is reported only for a recognised command word with bad arguments. */
  lemma UsageOnlyForKnownWords(c: string)
    requires Interpret(c).Usage?
    ensures HasPrefix(c, "add ") || HasPrefix(c, "select box ") || HasPrefix(c, "connect ")
  {
  }
}

=== FILE: data_structures.dfy ===
/** The entities of the scene: the `DataPoint` value record, the two-valued
    `LineType`, and the mutable `Node3D` and `Line3D` holders with their
    selection flag and derived display colour. */
module DataStructures {
  import opened Geometry
  import Text

  /** A numbered point in space; a plain value. */
  datatype DataPoint = DataPoint(number: int, x: real, y: real, z: real)

  /** `to_array`: the coordinates as a vector. */
  function PositionOf(p: DataPoint): Vec3 {
    Vec3(p.x, p.y, p.z)
  }

  /** The two kinds of line; nothing else is a line type. */
  datatype LineType = Material | Paner

  /** `LineType.value`, the text a snapshot stores for a line's type. */
  function TypeValue(t: LineType): string {
    match t
    case Material => "material"
    case Paner => "paner"
  }

  /** `LineType(value)`: looks a type up by its text; any other text is an error. */
  function ParseLineType(s: string): (r: Option<LineType>)
    ensures r.Some? <==> s == "material" || s == "paner"
  {
    if s == "material" then Some(Material)
    else if s == "paner" then Some(Paner)
    else None
  }

  datatype Option<T> = None | Some(value: T)

  /** A type survives being written as its text and looked up again, and the
      two types have different texts. */
  lemma TypeValueRoundTrip(t: LineType)
    ensures ParseLineType(TypeValue(t)) == Some(t)
    ensures TypeValue(t) != TypeValue(if t == Material then Paner else Material)
  {
  }

  /** The RGBA colours the model uses: white (1,1,1,1), yellow (1,1,0,1),
      red (1,0,0,1), green (0,1,0,1), cyan (0,1,1,1). */
  datatype Color = White | Yellow | Red | Green | Cyan

  /** Node colour: yellow while selected, white otherwise. */
  function NodeColor(selected: bool): Color {
    if selected then Yellow else White
  }

  /** Colour of an unselected line: red for MATERIAL, green for anything else. */
  function TypeColor(t: LineType): Color {
    if t == Material then Red else Green
  }

  /** Line colour: cyan while selected whatever the type, else the type colour. */
  function LineColor(t: LineType, selected: bool): (c: Color)
    ensures selected <==> c == Cyan
    ensures !selected ==> c == TypeColor(t)
  {
    if selected then Cyan else TypeColor(t)
  }

  /** The text starts with the type's text and "_line_". */
  predicate HasTypePrefix(s: string, t: LineType) {
    var p := TypeValue(t) + "_line_";
    |p| <= |s| && s[..|p|] == p
  }

  /** A line name tells its type: no name carries both prefixes. */
  lemma TypePrefixUnique(s: string, t: LineType, u: LineType)
    requires HasTypePrefix(s, t) && HasTypePrefix(s, u)
    ensures t == u
  {
    assert s[0] == s[..|TypeValue(t) + "_line_"|][0] == TypeValue(t)[0];
    assert s[0] == s[..|TypeValue(u) + "_line_"|][0] == TypeValue(u)[0];
  }

  /** A line as `Line3D(...)` leaves it: unselected, visible, in no group. */
  predicate AsBuilt(l: Line3D)
    reads l
  {
    !l.isSelected && l.isVisible && l.groupIds == {}
  }

  /** Every line of the list is as built. */
  predicate AllBuilt(ls: seq<Line3D>)
    reads ls
  {
    forall j :: 0 <= j < |ls| ==> AsBuilt(ls[j])
  }

  /** The name of a `t` line from node `a` to node `b`. */
  function LineName(t: LineType, a: int, b: int): string {
    TypeValue(t) + "_line_" + EndNumbers(a, b)
  }

  /** The "<start>_<end>" tail of a line name. */
  function EndNumbers(a: int, b: int): string {
    Text.IntToString(a) + "_" + Text.IntToString(b)
  }

  lemma LineNamePrefix(t: LineType, a: int, b: int)
    ensures HasTypePrefix(LineName(t, a, b), t)
  {
  }

  /** The tail gives back both numbers: they hold no '_', so the '_' between
      them is found again. */
  lemma EndNumbersInjective(a: int, b: int, c: int, e: int)
    requires EndNumbers(a, b) == EndNumbers(c, e)
    ensures a == c && b == e
  {
    Text.IntToStringNoUnderscore(a);
    Text.IntToStringNoUnderscore(c);
    Text.SeparatorSplits(Text.IntToString(a), Text.IntToString(b), Text.IntToString(c), Text.IntToString(e), '_');
    Text.IntToStringInjective(a, c);
    Text.IntToStringInjective(b, e);
  }

  /** A line name gives back its type and both numbers. */
  lemma LineNameInjective(t: LineType, a: int, b: int, u: LineType, c: int, e: int)
    ensures LineName(t, a, b) == LineName(u, c, e) <==> t == u && a == c && b == e
  {
    var s := LineName(t, a, b);
    if s == LineName(u, c, e) {
      LineNamePrefix(t, a, b);
      LineNamePrefix(u, c, e);
      TypePrefixUnique(s, t, u);
      var p := TypeValue(t) + "_line_";
      assert s[|p|..] == EndNumbers(a, b) && LineName(u, c, e)[|p|..] == EndNumbers(c, e);
      EndNumbersInjective(a, b, c, e);
    }
  }

  class Node3D {
    var dataPoint: DataPoint
    var position: Vec3
    var isSelected: bool
    var isVisible: bool
    var color: Color
    var groupId: int

    /** The position mirrors the data point and the colour mirrors the flag. */
    ghost predicate Valid()
      reads this
    {
      position == PositionOf(dataPoint) && color == NodeColor(isSelected)
    }

    constructor (dp: DataPoint)
      ensures dataPoint == dp && position == PositionOf(dp)
      ensures !isSelected && isVisible && color == White && groupId == 0
      ensures Valid()
    {
      dataPoint := dp;
      position := PositionOf(dp);
      isSelected := false;
      isVisible := true;
      color := White;
      groupId := 0;
    }

    /** `number`: always the data point's number. */
    function Number(): int
      reads this
    {
      dataPoint.number
    }

    /** `name`: "dataPoint_" followed by the number. */
    function Name(): (s: string)
      reads this
      ensures |s| > 10 && s[..10] == "dataPoint_"
    {
      "dataPoint_" + Text.IntToString(dataPoint.number)
    }

    /** The name shows the number: the text after "dataPoint_" reads back as
        the number, with a leading '-' exactly when it is negative. */
    lemma NumberInName()
      ensures Name()[10] == '-' <==> Number() < 0
      ensures Number() < 0 ==> Text.Value(Name()[11..]) == -Number()
      ensures Number() >= 0 ==> Text.Value(Name()[10..]) == Number()
    {
      assert Name()[10..] == Text.IntToString(Number());
      Text.IntToStringValue(Number());
      assert Name()[11..] == Text.IntToString(Number())[1..];
    }

    /** Two nodes have the same name exactly when they have the same number. */
    lemma NameIdentifies(other: Node3D)
      ensures Name() == other.Name() <==> Number() == other.Number()
    {
      var a, b := Name(), other.Name();
      assert a[10..] == Text.IntToString(Number()) && b[10..] == Text.IntToString(other.Number());
      Text.IntToStringInjective(Number(), other.Number());
    }

    method SetSelected(selected: bool)
      modifies this
      ensures isSelected == selected && color == NodeColor(selected)
      ensures dataPoint == old(dataPoint) && position == old(position)
      ensures isVisible == old(isVisible) && groupId == old(groupId)
      ensures old(Valid()) ==> Valid()
    {
      isSelected := selected;
      if selected {
        color := Yellow;
      } else {
        color := White;
      }
    }

    method UpdatePosition(x: real, y: real, z: real)
      modifies this
      ensures dataPoint == DataPoint(old(dataPoint.number), x, y, z)
      ensures position == Vec3(x, y, z)
      ensures Number() == old(Number())
      ensures isSelected == old(isSelected) && color == old(color)
      ensures isVisible == old(isVisible) && groupId == old(groupId)
      ensures old(Valid()) ==> Valid()
    {
      dataPoint := dataPoint.(x := x, y := y, z := z);
      position := Vec3(x, y, z);
    }
  }

  class Line3D {
    const startNode: Node3D
    const endNode: Node3D
    const lineType: LineType
    var isSelected: bool
    var isVisible: bool
    var groupIds: set<int>
    var color: Color

    /** The colour mirrors the type and the flag. */
    ghost predicate Valid()
      reads this
    {
      color == LineColor(lineType, isSelected)
    }

    constructor (start: Node3D, end: Node3D, t: LineType)
      ensures startNode == start && endNode == end && lineType == t
      ensures !isSelected && isVisible && groupIds == {}
      ensures color == TypeColor(t)
      ensures Valid()
    {
      startNode := start;
      endNode := end;
      lineType := t;
      isSelected := false;
      isVisible := true;
      groupIds := {};
      color := White;
      new;
      UpdateColor();
    }

    /** `start_pos`: read live from the start node, so moving the node moves the
        line; for a consistent node it is the node's data point. */
    function StartPos(): (p: Vec3)
      reads startNode
      ensures startNode.Valid() ==> p == PositionOf(startNode.dataPoint)
    {
      startNode.position
    }

    /** `end_pos`: read live from the end node; for a consistent node it is
        the node's data point. */
    function EndPos(): (p: Vec3)
      reads endNode
      ensures endNode.Valid() ==> p == PositionOf(endNode.dataPoint)
    {
      endNode.position
    }

    /** `name`: "<type>_line_<start>_<end>". */
    function Name(): (s: string)
      reads startNode, endNode
      ensures HasTypePrefix(s, lineType)
    {
      LineNamePrefix(lineType, startNode.dataPoint.number, endNode.dataPoint.number);
      LineName(lineType, startNode.dataPoint.number, endNode.dataPoint.number)
    }

    /** Two lines have the same name exactly when they have the same type and
        the same start and end numbers. */
    lemma NameIdentifies(other: Line3D)
      ensures Name() == other.Name() <==>
        && lineType == other.lineType
        && startNode.Number() == other.startNode.Number()
        && endNode.Number() == other.endNode.Number()
    {
      LineNameInjective(lineType, startNode.Number(), endNode.Number(),
                        other.lineType, other.startNode.Number(), other.endNode.Number());
    }

    /** `_update_color`: the type colour, overridden by cyan while selected. */
    method UpdateColor()
      modifies this
      ensures color == LineColor(lineType, isSelected)
      ensures isSelected == old(isSelected) && isVisible == old(isVisible) && groupIds == old(groupIds)
    {
      if lineType == Material {
        color := Red;
      } else {
        color := Green;
      }
      if isSelected {
        color := Cyan;
      }
    }

    method SetSelected(selected: bool)
      modifies this
      ensures isSelected == selected && color == LineColor(lineType, selected)
      ensures isVisible == old(isVisible) && groupIds == old(groupIds)
      ensures Valid()
    {
      isSelected := selected;
      UpdateColor();
    }
  }
}

=== FILE: editor.dfy ===
/** The `NodeEditor3D` helpers that work on the scene without file I/O: a new
    scene, the group rule applied while loading points, adding a node at a
    position with automatic numbering, and moving the selected nodes. */
module Editor {
  import opened Geometry
  import opened DataStructures
  import opened Lists
  import opened Snapshots
  import opened SceneLists
  import opened SceneManager

  // ----- the group rule of `load_csv` -----

  /** `group_size`: a quarter of the node count, rounded down, but at least one. */
  function GroupSize(total: nat): (g: nat)
    ensures g >= 1
    ensures total < 4 ==> g == 1
    ensures total >= 4 ==> g * 4 <= total < g * 4 + 4
  {
    if total / 4 < 1 then 1 else total / 4
  }

  /** The group of the `index`-th loaded point: consecutive runs of `GroupSize`
      points form groups 0, 1 and 2, and group 3 takes everything after them. */
  function GroupOf(index: nat, total: nat): (k: nat)
    ensures k <= 3 && k * GroupSize(total) <= index
    ensures k < 3 ==> index < k * GroupSize(total) + GroupSize(total)
  {
    var g := GroupSize(total);
    var q := index / g;
    DivisionRange(index, g, q);
    MulMonotone(3, q, g);
    if q < 3 then q else 3
  }

  /** Multiplying by a non-negative factor keeps order. */
  lemma MulMonotone(a: int, b: int, g: int)
    ensures 0 <= g && a <= b ==> a * g <= b * g
  {
    assert b * g == a * g + (b - a) * g;
  }

  /** One more multiple of `g`. */
  lemma NextMultiple(q: int, g: int)
    ensures (q + 1) * g == q * g + g
  {
  }

  /** `i / g` is `q` exactly when `i` lies in `[q * g, q * g + g)`. */
  lemma DivisionRange(i: nat, g: nat, q: nat)
    requires g >= 1
    ensures i / g == q <==> q * g <= i < q * g + g
  {
    var d := i / g;
    assert i == d * g + i % g;
    NextMultiple(d, g);
    NextMultiple(q, g);
    if q * g <= i < q * g + g && d != q {
      if d < q {
        MulMonotone(d + 1, q, g);
      } else {
        MulMonotone(q + 1, d, g);
      }
    }
  }

  /** The groups are exactly these index ranges: group `k < 3` is
      `[k * g, (k + 1) * g)`, group 3 is everything from `3 * g` on. */
  lemma GroupOfRange(index: nat, total: nat, k: nat)
    requires k <= 3
    ensures var g := GroupSize(total);
            GroupOf(index, total) == k <==> k * g <= index && (k == 3 || index < k * g + g)
  {
    var g := GroupSize(total);
    var d := index / g;
    DivisionRange(index, g, d);
    NextMultiple(d, g);
    MulMonotone(d + 1, 3, g);
    MulMonotone(3, d, g);
    if k < 3 {
      DivisionRange(index, g, k);
    }
  }

  /** Later points never fall into an earlier group. */
  lemma GroupOfMonotone(i: nat, j: nat, total: nat)
    requires i <= j
    ensures GroupOf(i, total) <= GroupOf(j, total)
  {
    var g := GroupSize(total);
    var a, b := i / g, j / g;
    DivisionRange(i, g, a);
    DivisionRange(j, g, b);
    NextMultiple(b, g);
    MulMonotone(b + 1, a, g);
  }

  /** With at least four points every one of the four groups gets a point:
      the first point of group `k` is the one at index `k * GroupSize`. */
  lemma EveryGroupUsed(total: nat, k: nat)
    requires total >= 4 && k <= 3
    ensures k * GroupSize(total) < total
    ensures GroupOf(k * GroupSize(total), total) == k
  {
    var g := GroupSize(total);
    MulMonotone(k, 3, g);
    GroupOfRange(k * g, total, k);
    assert k * g + g == (k + 1) * g;
  }

  /** With at most four points each point is a group of its own. */
  lemma SmallLoadOneGroupEach(index: nat, total: nat)
    requires index < total <= 4
    ensures GroupOf(index, total) == index
  {
  }

  // ----- automatic numbering of `add_node_at_position` -----

  /** The largest number of a non-empty list (`max`). */
  function MaxOf(s: seq<int>): (m: int)
    requires s != []
    ensures m in s
    ensures forall k :: k in s ==> k <= m
  {
    if |s| == 1 then s[0]
    else
      var rest := MaxOf(s[1..]);
      assert s == [s[0]] + s[1..];
      if s[0] < rest then rest else s[0]
  }

  /** The number an automatically numbered node gets: one past the largest
      existing number, or 1 in an empty scene. It is above every existing
      number, so it is new, and it is the smallest number with that property. */
  function NextNumber(s: seq<int>): (r: int)
    ensures forall k :: k in s ==> k < r
    ensures s == [] ==> r == 1
    ensures s != [] ==> r - 1 in s
  {
    if s == [] then 1 else MaxOf(s) + 1
  }

  /** A node as `load_csv` leaves it: the given point, the given group, unselected. */
  predicate Loaded(n: Node3D, dp: DataPoint, group: int)
    reads n
  {
    n.dataPoint == dp && n.groupId == group && !n.isSelected && n.isVisible
  }

  class NodeEditor3D {
    const scene: Scene3D
    var totalNodeCount: nat
    var groupSize: nat

    constructor ()
      ensures fresh(scene) && scene.Valid()
      ensures scene.nodes == [] && scene.lines == [] && scene.history == []
      ensures scene.selectedNodes == {} && scene.selectedLines == {}
      ensures totalNodeCount == 0 && groupSize == 0
    {
      scene := new Scene3D();
      totalNodeCount := 0;
      groupSize := 0;
    }

    /** `new_scene`: clears the scene and, unlike `clear`, the undo history too. */
    method NewScene()
      requires scene.Valid()
      modifies scene
      ensures scene.Valid()
      ensures scene.nodes == [] && scene.lines == [] && scene.history == []
      ensures scene.selectedNodes == {} && scene.selectedLines == {}
    {
      scene.Clear();
      scene.history := [];
    }

    /** `load_csv` after the file has been read: `read` is the list of points
        the reader returned, or `None` when reading failed. A failed read
        changes nothing and reports false. Otherwise the counters are set,
        the scene is cleared, and the points become unselected nodes in file
        order, each tagged with its group. The history is kept. */
    method LoadCsv(read: Option<seq<DataPoint>>) returns (loaded: bool)
      requires scene.Valid()
      modifies this, scene
      ensures scene.Valid()
      ensures loaded <==> read.Some?
      ensures read.None? ==> unchanged(this, scene)
      ensures read.Some? ==>
        && totalNodeCount == |read.value| && groupSize == GroupSize(|read.value|)
        && |scene.nodes| == |read.value|
        && (forall i :: 0 <= i < |read.value| ==>
              Loaded(scene.nodes[i], read.value[i], GroupOf(i, |read.value|)))
        && scene.lines == [] && scene.selectedNodes == {} && scene.selectedLines == {}
        && scene.history == old(scene.history)
    {
      if read.None? {
        return false;
      }
      var points := read.value;
      totalNodeCount := |points|;
      groupSize := GroupSize(|points|);
      scene.Clear();
      for i := 0 to |points|
        invariant scene.Valid()
        invariant |scene.nodes| == i
        invariant forall j :: 0 <= j < i ==> Loaded(scene.nodes[j], points[j], GroupOf(j, |points|))
        invariant scene.lines == [] && scene.selectedNodes == {} && scene.selectedLines == {}
        invariant scene.history == old(scene.history)
        invariant totalNodeCount == |points| && groupSize == GroupSize(|points|)
      {
        var _ := AddGroupedNode(points[i], GroupOf(i, |points|));
      }
      return true;
    }

    /** One step of the loading loop: `add_node`, then the group tag. */
    method AddGroupedNode(dp: DataPoint, group: int) returns (node: Node3D)
      requires scene.Valid()
      modifies scene
      ensures scene.Valid()
      ensures fresh(node) && scene.nodes == old(scene.nodes) + [node]
      ensures Loaded(node, dp, group)
      ensures scene.lines == old(scene.lines) && scene.history == old(scene.history)
      ensures scene.selectedNodes == old(scene.selectedNodes)
      ensures scene.selectedLines == old(scene.selectedLines)
    {
      node := scene.AddNode(dp);
      node.groupId := group;
    }

    /** `add_node_at_position`: adds an unselected node at `(x, y, z)`, numbered
        `number` when one is given and `NextNumber` of the existing numbers
        otherwise. */
    method AddNodeAtPosition(x: real, y: real, z: real, number: Option<int> := None) returns (node: Node3D)
      requires scene.Valid()
      modifies scene
      ensures scene.Valid()
      ensures fresh(node) && scene.nodes == old(scene.nodes) + [node]
      ensures node.position == Vec3(x, y, z) && !node.isSelected
      ensures node.isVisible && node.groupId == 0
      ensures number.Some? ==> node.Number() == number.value
      ensures number.None? ==> node.Number() == NextNumber(old(NumbersOf(scene.nodes)))
      ensures number.None? ==> forall n :: n in old(scene.nodes) ==> n.Number() < node.Number()
      ensures scene.lines == old(scene.lines) && scene.history == old(scene.history)
      ensures scene.selectedNodes == old(scene.selectedNodes)
      ensures scene.selectedLines == old(scene.selectedLines)
    {
      var existing := NumbersOf(scene.nodes);
      var n := if number.Some? then number.value else NextNumber(existing);
      node := scene.AddNode(DataPoint(n, x, y, z));
      if number.None? {
        forall m | m in old(scene.nodes)
          ensures m.Number() < node.Number()
        {
          var i :| 0 <= i < |old(scene.nodes)| && old(scene.nodes)[i] == m;
          assert existing[i] == m.Number() && existing[i] in existing;
        }
      }
    }

    /** `move_selected_nodes`: with nothing selected nothing happens, not even a
        history entry. Otherwise the state is saved once and every selected
        node moves by `(dx, dy, dz)`; no other node moves, and numbers, flags,
        groups and the lists stay as they were. A line's ends are read from its
        nodes, so every line end at a selected node moves with it. */
    method MoveSelectedNodes(dx: real, dy: real, dz: real)
      requires scene.Valid()
      modifies scene, scene.selectedNodes
      ensures scene.Valid()
      ensures scene.nodes == old(scene.nodes) && scene.lines == old(scene.lines)
      ensures scene.selectedNodes == old(scene.selectedNodes)
      ensures scene.selectedLines == old(scene.selectedLines)
      ensures old(scene.selectedNodes) == {} ==> scene.history == old(scene.history)
      ensures old(scene.selectedNodes) != {} ==>
                scene.history == Push(old(scene.history), old(scene.State()))
      ensures forall n :: n in scene.nodes ==>
                n.Number() == old(n.Number()) && n.isSelected == old(n.isSelected)
      ensures forall n :: n in scene.nodes ==>
                n.isVisible == old(n.isVisible) && n.groupId == old(n.groupId)
      ensures forall n :: n in scene.nodes ==>
                n.position == if n in scene.selectedNodes
                              then old(n.position).Plus(Vec3(dx, dy, dz))
                              else old(n.position)
      ensures forall l :: l in scene.lines ==>
                l.StartPos() == if l.startNode in scene.selectedNodes
                                then old(l.StartPos()).Plus(Vec3(dx, dy, dz))
                                else old(l.StartPos())
      ensures forall l :: l in scene.lines ==>
                l.EndPos() == if l.endNode in scene.selectedNodes
                              then old(l.EndPos()).Plus(Vec3(dx, dy, dz))
                              else old(l.EndPos())
    {
      if scene.selectedNodes == {} {
        return;
      }
      scene.SaveState();
      var delta := Vec3(dx, dy, dz);
      var pending := scene.selectedNodes;
      while pending != {}
        invariant scene.Valid()
        invariant pending <= scene.selectedNodes
        invariant scene.nodes == old(scene.nodes) && scene.lines == old(scene.lines)
        invariant scene.selectedNodes == old(scene.selectedNodes)
        invariant scene.selectedLines == old(scene.selectedLines)
        invariant scene.history == Push(old(scene.history), old(scene.State()))
        invariant forall n :: n in scene.nodes ==>
                    n.Number() == old(n.Number()) && n.isSelected == old(n.isSelected)
        invariant forall n :: n in scene.nodes ==>
                    n.isVisible == old(n.isVisible) && n.groupId == old(n.groupId)
        invariant forall n :: n in scene.nodes ==>
                    n.position == if n in scene.selectedNodes - pending
                                  then old(n.position).Plus(delta)
                                  else old(n.position)
        decreases pending
      {
        var n :| n in pending;
        MoveNode(n, delta);
        pending := pending - {n};
      }
    }

    /** One step of the moving loop: `update_position` to the node's position plus `d`. */
    method MoveNode(n: Node3D, d: Vec3)
      requires scene.Valid() && n in scene.nodes
      modifies n
      ensures scene.Valid()
      ensures n.position == old(n.position).Plus(d)
      ensures n.Number() == old(n.Number()) && n.isSelected == old(n.isSelected)
      ensures n.isVisible == old(n.isVisible) && n.groupId == old(n.groupId)
    {
      var p := n.position.Plus(d);
      n.UpdatePosition(p.x, p.y, p.z);
    }
  }
}

=== FILE: geometry.dfy ===
/** Points, boxes and the two whole-scene queries of `Scene3D`: the bounding box
    used for camera framing (`get_bounds`) and the mean position (`get_center`,
    and the average in `get_selected_info`). Coordinates are exact reals. */
module Geometry {

  datatype Vec3 = Vec3(x: real, y: real, z: real) {
    function Plus(d: Vec3): Vec3 {
      Vec3(x + d.x, y + d.y, z + d.z)
    }
    /** Every coordinate divided by `k`, as numpy divides an array by a scalar. */
    function DividedBy(k: real): Vec3
      requires k != 0.0
    {
      Vec3(x / k, y / k, z / k)
    }
  }

  const Origin := Vec3(0.0, 0.0, 0.0)

  /** An axis-aligned box given by its two corners. */
  datatype Box = Box(lo: Vec3, hi: Vec3)

  /** Closed, componentwise containment: `lo[i] <= p[i] <= hi[i]` on every axis. */
  predicate InBox(p: Vec3, lo: Vec3, hi: Vec3) {
    lo.x <= p.x <= hi.x && lo.y <= p.y <= hi.y && lo.z <= p.z <= hi.z
  }

  function Min(a: real, b: real): real { if a <= b then a else b }
  function Max(a: real, b: real): real { if a <= b then b else a }

  /** Componentwise minimum of the points (`np.min(positions, axis=0)`). */
  function MinCorner(ps: seq<Vec3>): (r: Vec3)
    requires |ps| > 0
    ensures forall i :: 0 <= i < |ps| ==> r.x <= ps[i].x && r.y <= ps[i].y && r.z <= ps[i].z
    ensures exists i :: 0 <= i < |ps| && ps[i].x == r.x
    ensures exists i :: 0 <= i < |ps| && ps[i].y == r.y
    ensures exists i :: 0 <= i < |ps| && ps[i].z == r.z
  {
    if |ps| == 1 then ps[0]
    else
      var m := MinCorner(ps[1..]);
      assert forall i :: 1 <= i < |ps| ==> ps[i] == ps[1..][i - 1];
      Vec3(Min(ps[0].x, m.x), Min(ps[0].y, m.y), Min(ps[0].z, m.z))
  }

  /** Componentwise maximum of the points (`np.max(positions, axis=0)`). */
  function MaxCorner(ps: seq<Vec3>): (r: Vec3)
    requires |ps| > 0
    ensures forall i :: 0 <= i < |ps| ==> ps[i].x <= r.x && ps[i].y <= r.y && ps[i].z <= r.z
    ensures exists i :: 0 <= i < |ps| && ps[i].x == r.x
    ensures exists i :: 0 <= i < |ps| && ps[i].y == r.y
    ensures exists i :: 0 <= i < |ps| && ps[i].z == r.z
  {
    if |ps| == 1 then ps[0]
    else
      var m := MaxCorner(ps[1..]);
      assert forall i :: 1 <= i < |ps| ==> ps[i] == ps[1..][i - 1];
      Vec3(Max(ps[0].x, m.x), Max(ps[0].y, m.y), Max(ps[0].z, m.z))
  }

  /** The smallest span an axis may have before `get_bounds` widens the box. */
  const MinSpan: real := 0.1
  /** Half the side of the widened box. */
  const HalfSide: real := 0.5

  /** The box `get_bounds` returns for an empty scene. */
  const UnitBox := Box(Origin, Vec3(1.0, 1.0, 1.0))

  /** `np.any(size < 0.1)`: some axis of the tight box is too thin. */
  predicate AnyThin(lo: Vec3, hi: Vec3) {
    hi.x - lo.x < MinSpan || hi.y - lo.y < MinSpan || hi.z - lo.z < MinSpan
  }

  function Midpoint(lo: Vec3, hi: Vec3): Vec3 {
    Vec3((lo.x + hi.x) / 2.0, (lo.y + hi.y) / 2.0, (lo.z + hi.z) / 2.0)
  }

  /** `get_bounds` as the code computes it: the tight box, except that when ANY
      axis spans less than `MinSpan`, ALL three axes become `center -/+ 0.5`. */
  function SceneBounds(ps: seq<Vec3>): (r: Box)
    ensures ps == [] ==> r == UnitBox
    ensures ps != [] && !AnyThin(MinCorner(ps), MaxCorner(ps)) ==>
      r == Box(MinCorner(ps), MaxCorner(ps)) &&
      forall i :: 0 <= i < |ps| ==> InBox(ps[i], r.lo, r.hi)
    ensures ps != [] && AnyThin(MinCorner(ps), MaxCorner(ps)) ==>
      Midpoint(r.lo, r.hi) == Midpoint(MinCorner(ps), MaxCorner(ps)) &&
      r.hi.x - r.lo.x == 1.0 && r.hi.y - r.lo.y == 1.0 && r.hi.z - r.lo.z == 1.0
  {
    if ps == [] then UnitBox
    else
      var lo, hi := MinCorner(ps), MaxCorner(ps);
      if AnyThin(lo, hi) then
        var c := Midpoint(lo, hi);
        Box(Vec3(c.x - HalfSide, c.y - HalfSide, c.z - HalfSide),
            Vec3(c.x + HalfSide, c.y + HalfSide, c.z + HalfSide))
      else Box(lo, hi)
  }

  /** Two nodes 100 apart along x, both at y = z = 0: a flat but wide scene. */
  const FlatPair := [Vec3(0.0, 0.0, 0.0), Vec3(100.0, 0.0, 0.0)]

  lemma FlatPairCorners()
    ensures MinCorner(FlatPair) == Vec3(0.0, 0.0, 0.0)
    ensures MaxCorner(FlatPair) == Vec3(100.0, 0.0, 0.0)
  {
    assert FlatPair[1..] == [Vec3(100.0, 0.0, 0.0)];
  }

  /** The code widens all axes when only one is thin, so the framing box can cut
      off nodes: for `FlatPair` it is the unit cube around (50, 0, 0), which holds
      neither node. */
  lemma SceneBoundsCanExcludeNode()
    ensures !InBox(FlatPair[0], SceneBounds(FlatPair).lo, SceneBounds(FlatPair).hi)
    ensures !InBox(FlatPair[1], SceneBounds(FlatPair).lo, SceneBounds(FlatPair).hi)
  {
    FlatPairCorners();
  }

  /** One axis of the intended framing box: the tight interval, widened to
      `mid -/+ 0.5` only when that axis itself is thinner than `MinSpan`. */
  function AxisRange(lo: real, hi: real): (real, real) {
    if hi - lo < MinSpan then ((lo + hi) / 2.0 - HalfSide, (lo + hi) / 2.0 + HalfSide) else (lo, hi)
  }

  /** The tight box from `lo` to `hi` with each thin axis widened on its own. */
  function Framed(lo: Vec3, hi: Vec3): Box {
    var x, y, z := AxisRange(lo.x, hi.x), AxisRange(lo.y, hi.y), AxisRange(lo.z, hi.z);
    Box(Vec3(x.0, y.0, z.0), Vec3(x.1, y.1, z.1))
  }

  /** The evidently intended `get_bounds`: each thin axis is widened on its own. */
  function FramingBounds(ps: seq<Vec3>): (r: Box)
    ensures ps == [] ==> r == UnitBox
  {
    if ps == [] then UnitBox else Framed(MinCorner(ps), MaxCorner(ps))
  }

  /** The width an axis of the intended framing box has: the tight width, or
      1.0 when that is below `MinSpan`. */
  function FramedWidth(lo: real, hi: real): real {
    if hi - lo < MinSpan then 2.0 * HalfSide else hi - lo
  }

  /** One widened axis covers the tight interval, keeps its centre, and is the
      tight interval itself unless that is thinner than `MinSpan`, when it is
      1.0 wide. */
  lemma AxisRangeCovers(lo: real, hi: real)
    requires lo <= hi
    ensures AxisRange(lo, hi).0 <= lo && hi <= AxisRange(lo, hi).1
    ensures AxisRange(lo, hi).1 - AxisRange(lo, hi).0 >= MinSpan
    ensures (AxisRange(lo, hi).0 + AxisRange(lo, hi).1) / 2.0 == (lo + hi) / 2.0
    ensures AxisRange(lo, hi).1 - AxisRange(lo, hi).0 == FramedWidth(lo, hi)
    ensures hi - lo >= MinSpan ==> AxisRange(lo, hi) == (lo, hi)
  {
  }

  /** The corrected framing box contains every node and is at least `MinSpan`
      wide on every axis. */
  lemma FramingBoundsContainAll(ps: seq<Vec3>)
    requires ps != []
    ensures var b := FramingBounds(ps);
            (forall i :: 0 <= i < |ps| ==> InBox(ps[i], b.lo, b.hi)) &&
            b.hi.x - b.lo.x >= MinSpan && b.hi.y - b.lo.y >= MinSpan && b.hi.z - b.lo.z >= MinSpan
  {
    var lo, hi := MinCorner(ps), MaxCorner(ps);
    AxisRangeCovers(lo.x, hi.x);
    AxisRangeCovers(lo.y, hi.y);
    AxisRangeCovers(lo.z, hi.z);
  }

  /** The corrected framing box has the tight box's centre, and on each axis
      the tight width, or 1.0 where that is below `MinSpan`. */
  lemma FramingBoundsShape(ps: seq<Vec3>)
    requires ps != []
    ensures var b, lo, hi := FramingBounds(ps), MinCorner(ps), MaxCorner(ps);
            && Midpoint(b.lo, b.hi) == Midpoint(lo, hi)
            && b.hi.x - b.lo.x == FramedWidth(lo.x, hi.x)
            && b.hi.y - b.lo.y == FramedWidth(lo.y, hi.y)
            && b.hi.z - b.lo.z == FramedWidth(lo.z, hi.z)
  {
    var lo, hi := MinCorner(ps), MaxCorner(ps);
    assert lo.x <= ps[0].x <= hi.x && lo.y <= ps[0].y <= hi.y && lo.z <= ps[0].z <= hi.z;
    FramedShape(lo, hi);
  }

  lemma FramedShape(lo: Vec3, hi: Vec3)
    requires lo.x <= hi.x && lo.y <= hi.y && lo.z <= hi.z
    ensures var b := Framed(lo, hi);
            && Midpoint(b.lo, b.hi) == Midpoint(lo, hi)
            && b.hi.x - b.lo.x == FramedWidth(lo.x, hi.x)
            && b.hi.y - b.lo.y == FramedWidth(lo.y, hi.y)
            && b.hi.z - b.lo.z == FramedWidth(lo.z, hi.z)
  {
    AxisRangeCovers(lo.x, hi.x);
    AxisRangeCovers(lo.y, hi.y);
    AxisRangeCovers(lo.z, hi.z);
  }

  /** A single point is framed by the unit cube centred on it. */
  lemma SinglePointFraming(p: Vec3)
    ensures FramingBounds([p]) == Box(Vec3(p.x - 0.5, p.y - 0.5, p.z - 0.5), Vec3(p.x + 0.5, p.y + 0.5, p.z + 0.5))
  {
  }

  /** Where no axis is thin the correction changes nothing: both give the
      tight box. */
  lemma FramingBoundsAgreeWhenWide(ps: seq<Vec3>)
    requires ps != []
    ensures !AnyThin(MinCorner(ps), MaxCorner(ps)) ==>
      FramingBounds(ps) == SceneBounds(ps) == Box(MinCorner(ps), MaxCorner(ps))
  {
  }

  /** Componentwise sum of the points. */
  function Sum(ps: seq<Vec3>): Vec3 {
    if ps == [] then Origin else ps[0].Plus(Sum(ps[1..]))
  }

  /** `np.mean(positions, axis=0)`, or the origin when there are no points.
      The mean of a non-empty list of points lies in their tight bounding box. */
  function Mean(ps: seq<Vec3>): (m: Vec3)
    ensures ps == [] ==> m == Origin
    ensures ps != [] ==> InBox(m, MinCorner(ps), MaxCorner(ps))
  {
    if ps == [] then Origin
    else
      SumBounds(ps, MinCorner(ps), MaxCorner(ps));
      MeanOfBounded(Sum(ps), |ps|, MinCorner(ps), MaxCorner(ps));
      Sum(ps).DividedBy(|ps| as real)
  }

  /** `v` added to itself `n` times. */
  function Repeat(n: nat, v: Vec3): Vec3 {
    if n == 0 then Origin else v.Plus(Repeat(n - 1, v))
  }

  lemma OneMoreTime(n: nat, a: real)
    requires n > 0
    ensures a + (n - 1) as real * a == n as real * a
  {
    var m := n as real;
    assert (n - 1) as real == m - 1.0;
    assert (m - 1.0) * a + a == m * a;
  }

  /** Lower and upper bounds on every point bound their sum. */
  lemma {:induction false} SumBounds(ps: seq<Vec3>, lo: Vec3, hi: Vec3)
    requires forall i :: 0 <= i < |ps| ==> InBox(ps[i], lo, hi)
    ensures InBox(Sum(ps), Repeat(|ps|, lo), Repeat(|ps|, hi))
  {
    if ps != [] {
      assert forall i :: 0 <= i < |ps| - 1 ==> ps[1..][i] == ps[i + 1];
      SumBounds(ps[1..], lo, hi);
    }
  }

  /** Bounds that hold of every point hold of their mean. */
  lemma MeanBetween(ps: seq<Vec3>, lo: Vec3, hi: Vec3)
    requires ps != []
    requires forall i :: 0 <= i < |ps| ==> InBox(ps[i], lo, hi)
    ensures InBox(Mean(ps), lo, hi)
  {
    SumBounds(ps, lo, hi);
    MeanOfBounded(Sum(ps), |ps|, lo, hi);
  }

  /** A sum of `n` terms between `n` times two bounds, divided by `n`, lies between them. */
  lemma MeanOfBounded(s: Vec3, n: nat, lo: Vec3, hi: Vec3)
    requires n > 0 && InBox(s, Repeat(n, lo), Repeat(n, hi))
    ensures InBox(s.DividedBy(n as real), lo, hi)
  {
    RepeatOnAxes(n, lo);
    RepeatOnAxes(n, hi);
    MeanAxis(s.x, n, lo.x, hi.x);
    MeanAxis(s.y, n, lo.y, hi.y);
    MeanAxis(s.z, n, lo.z, hi.z);
  }

  /** `r` added to itself `n` times. */
  function Scaled(n: nat, r: real): real {
    if n == 0 then 0.0 else r + Scaled(n - 1, r)
  }

  lemma {:induction false} RepeatOnAxes(n: nat, v: Vec3)
    ensures Repeat(n, v) == Vec3(Scaled(n, v.x), Scaled(n, v.y), Scaled(n, v.z))
  {
    if n > 0 {
      RepeatOnAxes(n - 1, v);
    }
  }

  lemma {:induction false} ScaledIsProduct(n: nat, r: real)
    ensures Scaled(n, r) == n as real * r
  {
    if n > 0 {
      ScaledIsProduct(n - 1, r);
      OneMoreTime(n, r);
    }
  }

  /** One axis of the mean: between `n` times the bounds implies between the bounds. */
  lemma MeanAxis(s: real, n: nat, lo: real, hi: real)
    requires n > 0 && Scaled(n, lo) <= s <= Scaled(n, hi)
    ensures lo <= s / n as real <= hi
  {
    ScaledIsProduct(n, lo);
    ScaledIsProduct(n, hi);
    var m := n as real;
    assert s / m * m == s;
  }

}

=== FILE: lists.dfy ===
/** Generic helpers on sequences standing for Python lists: membership without
    repeats, `list.remove`, and removing every element of a set. */
module Lists {

  /** No element occurs twice. */
  predicate Distinct<T(==)>(s: seq<T>) {
    forall i, j :: 0 <= i < j < |s| ==> s[i] != s[j]
  }

  /** The elements of `s` not in `gone`, in their original order. */
  function Exclude<T(==)>(s: seq<T>, gone: set<T>): (r: seq<T>)
    ensures |r| <= |s|
  {
    if s == [] then []
    else (if s[0] in gone then [] else [s[0]]) + Exclude(s[1..], gone)
  }

  /** What survives the exclusion: exactly the elements of `s` outside `gone`. */
  lemma {:induction false} ExcludeMembers<T>(s: seq<T>, gone: set<T>)
    ensures forall x :: x in Exclude(s, gone) <==> x in s && x !in gone
  {
    if s != [] {
      ExcludeMembers(s[1..], gone);
      assert s == [s[0]] + s[1..];
    }
  }

  /** Python's `list.remove(x)`: drops the first occurrence of `x`, if any. */
  function RemoveFirst<T(==)>(s: seq<T>, x: T): (r: seq<T>)
    ensures x in s ==> |r| == |s| - 1
    ensures x !in s ==> r == s
  {
    if s == [] then []
    else if s[0] == x then s[1..]
    else [s[0]] + RemoveFirst(s[1..], x)
  }

  lemma {:induction false} ExcludeDistinct<T>(s: seq<T>, gone: set<T>)
    requires Distinct(s)
    ensures Distinct(Exclude(s, gone))
  {
    if s != [] {
      ExcludeDistinct(s[1..], gone);
      ExcludeMembers(s[1..], gone);
      assert s[0] !in s[1..];
    }
  }

  lemma {:induction false} ExcludeNothing<T>(s: seq<T>, gone: set<T>)
    requires forall i :: 0 <= i < |s| ==> s[i] !in gone
    ensures Exclude(s, gone) == s
  {
    if s != [] {
      ExcludeNothing(s[1..], gone);
    }
  }

  /** Removing one element from a list without repeats is excluding it. */
  lemma {:induction false} RemoveFirstDistinct<T>(s: seq<T>, x: T)
    requires Distinct(s)
    ensures RemoveFirst(s, x) == Exclude(s, {x})
  {
    if s != [] {
      if s[0] == x {
        assert forall i :: 0 <= i < |s| - 1 ==> s[1..][i] == s[i + 1] != x;
        ExcludeNothing(s[1..], {x});
      } else {
        RemoveFirstDistinct(s[1..], x);
      }
    }
  }

  /** Excluding in two rounds is excluding the union once. */
  lemma {:induction false} ExcludeTwice<T>(s: seq<T>, a: set<T>, b: set<T>)
    ensures Exclude(Exclude(s, a), b) == Exclude(s, a + b)
  {
    if s != [] {
      ExcludeTwice(s[1..], a, b);
      if s[0] !in a {
        assert Exclude(s, a) == [s[0]] + Exclude(s[1..], a);
        assert Exclude(s, a)[1..] == Exclude(s[1..], a);
      } else {
        assert Exclude(s, a) == Exclude(s[1..], a);
      }
    }
  }

  /** Appending one element after a concatenation. */
  lemma AppendLast<T>(a: seq<T>, b: seq<T>, x: T)
    ensures (a + b) + [x] == a + (b + [x])
  {
  }

  /** The elements of a list, as a set. */
  function ToSet<T>(s: seq<T>): set<T> {
    set x | x in s
  }

  lemma ToSetPrefix<T>(s: seq<T>, i: nat)
    requires i < |s|
    ensures ToSet(s[..i + 1]) == ToSet(s[..i]) + {s[i]}
  {
    assert s[..i + 1] == s[..i] + [s[i]];
  }
}

=== FILE: panels.dfy ===
/** `PanelMapping`: a registry of panels keyed by ids handed out from a
    counter ("P0001", "P0002", ...), kept in insertion order like a Python
    dict, and the row layout of its CSV export. */
module Panels {
  import opened Text
  import opened DataStructures
  import opened Lists
  import opened SceneLists

  /** What the registry stores for a panel: the corner nodes' numbers, the
      panel type, the group, and the corner nodes themselves. */
  datatype PanelInfo = PanelInfo(nodes: seq<int>, panelType: string, group: int, corners: seq<Node3D>)

  type Entry = (string, PanelInfo)

  /** `f"P{n:04d}"`: "P" followed by `n` in decimal, zero-padded to four digits. */
  function PanelId(n: nat): (r: string)
    ensures |r| >= 5 && r[0] == 'P'
  {
    "P" + ZeroPad(Digits(n), 4)
  }

  /** The digits after the "P" denote the counter value again. */
  lemma PanelIdValue(n: nat)
    ensures Value(PanelId(n)[1..]) == n
  {
    PaddedDigitsValue(n, 4);
    assert PanelId(n)[1..] == ZeroPad(Digits(n), 4);
  }

  /** The ids below 10000 are exactly five characters, "P" and four digits. */
  lemma PanelIdShape(n: nat)
    requires n < 10000
    ensures |PanelId(n)| == 5 && AllDigits(PanelId(n)[1..])
  {
    assert Pow10(4) == 10000;
    DigitsFit(n, 4);
    var d := Digits(n);
    var p := ZeroPad(d, 4);
    assert PanelId(n)[1..] == p;
    forall i | 0 <= i < |p|
      ensures '0' <= p[i] <= '9'
    {
      if i >= |p| - |d| {
        assert p[i] == d[i - (|p| - |d|)];
      }
    }
  }

  /** Different counter values give different ids. */
  lemma PanelIdInjective(a: nat, b: nat)
    ensures PanelId(a) == PanelId(b) ==> a == b
  {
    PanelIdValue(a);
    PanelIdValue(b);
  }

  /** The first ids the counter hands out. */
  lemma FirstPanelIds()
    ensures PanelId(1) == "P0001"
    ensures PanelId(12) == "P0012"
  {
    assert Digits(1) == "1";
    assert Digits(12) == Digits(1) + "2" == "12";
    assert Zeros(3) == "000";
    assert Zeros(2) == "00";
  }

  /** The keys of the registry, in insertion order. */
  function Ids(ps: seq<Entry>): seq<string> {
    seq(|ps|, i requires 0 <= i < |ps| => ps[i].0)
  }

  /** Dict assignment `d[id] = info`: an existing key keeps its place and
      takes the new value; a new key goes last. */
  function Put(ps: seq<Entry>, id: string, info: PanelInfo): (r: seq<Entry>)
    ensures id in Ids(ps) ==> |r| == |ps|
    ensures id !in Ids(ps) ==> |r| == |ps| + 1
  {
    if ps == [] then [(id, info)]
    else if ps[0].0 == id then
      assert Ids(ps)[0] == id;
      [(id, info)] + ps[1..]
    else
      assert Ids(ps)[1..] == Ids(ps[1..]);
      [ps[0]] + Put(ps[1..], id, info)
  }

  /** Assigning a new key appends one entry and leaves the others alone. */
  lemma {:induction false} PutNew(ps: seq<Entry>, id: string, info: PanelInfo)
    requires id !in Ids(ps)
    ensures Put(ps, id, info) == ps + [(id, info)]
  {
    if ps != [] {
      assert Ids(ps)[1..] == Ids(ps[1..]);
      PutNew(ps[1..], id, info);
      assert ps == [ps[0]] + ps[1..];
    }
  }

  /** Assigning an existing key replaces its value in place. */
  lemma {:induction false} PutExisting(ps: seq<Entry>, k: nat, info: PanelInfo)
    requires k < |ps| && Distinct(Ids(ps))
    ensures Put(ps, ps[k].0, info) == ps[k := (ps[k].0, info)]
  {
    var id := ps[k].0;
    if k > 0 {
      assert Ids(ps)[0] != Ids(ps)[k];
      assert Ids(ps[1..]) == Ids(ps)[1..];
      PutExisting(ps[1..], k - 1, info);
      assert ps[k := (id, info)] == [ps[0]] + ps[1..][k - 1 := (id, info)];
    }
  }

  /** The registry as the counter builds it: the `i`-th entry has id `PanelId(i + 1)`. */
  predicate Numbered(ps: seq<Entry>) {
    forall i :: 0 <= i < |ps| ==> ps[i].0 == PanelId(i + 1)
  }

  /** Adding the next id at the end keeps a counter-built registry counter-built. */
  lemma NumberedAppend(ps: seq<Entry>, info: PanelInfo)
    requires Numbered(ps)
    ensures Numbered(ps + [(PanelId(|ps| + 1), info)])
  {
  }

  /** The id the counter hands out next is not yet in a counter-built registry. */
  lemma NextIdFresh(ps: seq<Entry>)
    requires Numbered(ps)
    ensures PanelId(|ps| + 1) !in Ids(ps)
  {
    forall i | 0 <= i < |ps|
      ensures Ids(ps)[i] != PanelId(|ps| + 1)
    {
      assert Ids(ps)[i] == PanelId(i + 1);
      PanelIdInjective(i + 1, |ps| + 1);
    }
  }

  /** The ids of a counter-built registry are all different. */
  lemma NumberedDistinct(ps: seq<Entry>)
    requires Numbered(ps)
    ensures Distinct(Ids(ps))
  {
    forall i, j | 0 <= i < j < |ps|
      ensures Ids(ps)[i] != Ids(ps)[j]
    {
      assert Ids(ps)[i] == PanelId(i + 1) && Ids(ps)[j] == PanelId(j + 1);
      PanelIdInjective(i + 1, j + 1);
    }
  }

  /** A value handed to the CSV writer: a text or an integer, which the
      writer turns into text itself. */
  datatype Cell = Text(text: string) | Number(value: int)

  /** The fixed header row of the export. */
  const Header: seq<Cell> :=
    [Text("panel_id"), Text("node1"), Text("node2"), Text("node3"), Text("node4"), Text("type"), Text("group")]

  /** The row written for one entry: id, the first four node numbers, type and
      group. An entry with fewer than four node numbers has no row: indexing
      `nodes[3]` fails there. */
  function Row(p: Entry): (r: Option<seq<Cell>>)
    ensures r.Some? <==> |p.1.nodes| >= 4
    ensures r.Some? ==> |r.value| == |Header| && r.value[0] == Text(p.0)
  {
    var ns := p.1.nodes;
    if |ns| < 4 then None
    else Some([Text(p.0), Number(ns[0]), Number(ns[1]), Number(ns[2]), Number(ns[3]),
               Text(p.1.panelType), Number(p.1.group)])
  }

  /** Under the header's columns: the id, the first four node numbers, the
      type and the group. */
  lemma RowLayout(p: Entry)
    requires |p.1.nodes| >= 4
    ensures forall j :: 1 <= j <= 4 ==> Row(p).value[j] == Number(p.1.nodes[j - 1])
    ensures Row(p).value[5] == Text(p.1.panelType) && Row(p).value[6] == Number(p.1.group)
  {
  }

  /** Node numbers past the fourth never reach the export. */
  lemma RowUsesFirstFour(p: Entry)
    requires |p.1.nodes| >= 4
    ensures Row(p) == Row((p.0, p.1.(nodes := p.1.nodes[..4])))
  {
  }

  /** The rows written after the header: one per entry in order, stopping at
      the first entry that has no row. */
  function Written(ps: seq<Entry>): (r: seq<seq<Cell>>)
    ensures |r| <= |ps|
  {
    if ps == [] then []
    else match Row(ps[0])
      case None => []
      case Some(row) => [row] + Written(ps[1..])
  }

  /** When the entries before `k` all have rows and entry `k` (if any) does
      not, exactly those `k` rows are written, in order. */
  lemma {:induction false} WrittenUpTo(ps: seq<Entry>, k: nat)
    requires k <= |ps|
    requires forall j :: 0 <= j < k ==> |ps[j].1.nodes| >= 4
    requires k < |ps| ==> |ps[k].1.nodes| < 4
    ensures |Written(ps)| == k
    ensures forall j :: 0 <= j < k ==> Row(ps[j]).Some? && Written(ps)[j] == Row(ps[j]).value
  {
    if k > 0 {
      WrittenUpTo(ps[1..], k - 1);
    }
  }

  /** Rows collected one by one up to the first entry without a row are the
      header followed by `Written`. */
  lemma WrittenRows(ps: seq<Entry>, rows: seq<seq<Cell>>, k: nat)
    requires k <= |ps|
    requires forall j :: 0 <= j < k ==> |ps[j].1.nodes| >= 4
    requires k < |ps| ==> |ps[k].1.nodes| < 4
    requires |rows| == k + 1 && rows[0] == Header
    requires forall j :: 0 <= j < k ==> rows[j + 1] == Row(ps[j]).value
    ensures rows == [Header] + Written(ps)
  {
    WrittenUpTo(ps, k);
  }

  /** A complete export of a counter-built registry lists the ids "P0001",
      "P0002", ... in order, one row each. */
  lemma ExportListsIdsInOrder(ps: seq<Entry>)
    requires Numbered(ps)
    requires forall j :: 0 <= j < |ps| ==> |ps[j].1.nodes| >= 4
    ensures |Written(ps)| == |ps|
    ensures forall j :: 0 <= j < |ps| ==> |Written(ps)[j]| == |Header| && Written(ps)[j][0] == Text(PanelId(j + 1))
  {
    WrittenUpTo(ps, |ps|);
  }

  class PanelMapping {
    var panels: seq<Entry>
    var nextPanelId: nat

    /** The counter is one past the number of panels and each entry carries
        the id the counter had when it was added. */
    ghost predicate Valid()
      reads this
    {
      nextPanelId == |panels| + 1 && Numbered(panels)
    }

    constructor ()
      ensures Valid() && panels == [] && nextPanelId == 1
    {
      panels := [];
      nextPanelId := 1;
    }

    /** `add_panel`: registers the corners under the next id, which it returns.
        The id is new, so the registry grows by exactly this entry at the end
        and the counter moves on by one. */
    method AddPanel(corners: seq<Node3D>, panelType: string := "rect", groupId: int := 4)
      returns (id: string)
      requires Valid()
      modifies this
      ensures Valid()
      ensures id == PanelId(old(nextPanelId)) && id !in Ids(old(panels))
      ensures nextPanelId == old(nextPanelId) + 1
      ensures panels == old(panels) + [(id, PanelInfo(NumbersOf(corners), panelType, groupId, corners))]
    {
      id := PanelId(nextPanelId);
      var info := PanelInfo(NumbersOf(corners), panelType, groupId, corners);
      NextIdFresh(panels);
      PutNew(panels, id, info);
      NumberedAppend(panels, info);
      panels := Put(panels, id, info);
      nextPanelId := nextPanelId + 1;
    }

    /** `to_csv` without the file: the rows handed to the CSV writer, header
        first, and whether every panel could be written. */
    method ToCsv() returns (rows: seq<seq<Cell>>, complete: bool)
      ensures complete <==> forall j :: 0 <= j < |panels| ==> |panels[j].1.nodes| >= 4
      ensures rows == [Header] + Written(panels)
    {
      rows := [Header];
      var i := 0;
      while i < |panels| && |panels[i].1.nodes| >= 4
        invariant 0 <= i <= |panels|
        invariant forall j :: 0 <= j < i ==> |panels[j].1.nodes| >= 4
        invariant |rows| == i + 1 && rows[0] == Header
        invariant forall j :: 0 <= j < i ==> rows[j + 1] == Row(panels[j]).value
      {
        rows := rows + [Row(panels[i]).value];
        i := i + 1;
      }
      complete := i == |panels|;
      WrittenRows(panels, rows, i);
    }
  }
}

=== FILE: paner_lines.dfy ===
/** The viewer's two ways of adding a PANER line to the scene's line list:
    `create_paner_line`, which always appends, and `create_paner_line_safe`,
    which first scans the list and appends only when no line already joins
    the two nodes in either direction. */
module PanerLines {
  import opened DataStructures
  import opened Lists
  import opened SceneLists
  import opened SceneManager

  /** The pair joins `a` and `b`, in either direction. */
  predicate SamePair<T(==)>(p: (T, T), a: T, b: T) {
    (p.0 == a && p.1 == b) || (p.0 == b && p.1 == a)
  }

  /** Some pair of the list joins `a` and `b`. */
  predicate Joined<T(==)>(ps: seq<(T, T)>, a: T, b: T) {
    exists i :: 0 <= i < |ps| && SamePair(ps[i], a, b)
  }

  /** No two pairs of the list join the same two nodes. */
  predicate NoDuplicatePairs<T(==)>(ps: seq<(T, T)>) {
    forall i, j :: 0 <= i < j < |ps| ==> !SamePair(ps[j], ps[i].0, ps[i].1)
  }

  /** The endpoint pairs after `create_paner_line_safe(a, b)`: the same list
      when `a` and `b` are already joined, else one more pair from `a` to `b`. */
  function AddIfAbsent<T(==)>(ps: seq<(T, T)>, a: T, b: T): (r: seq<(T, T)>)
    ensures Joined(r, a, b) && Joined(r, b, a)
    ensures |r| == if Joined(ps, a, b) then |ps| else |ps| + 1
  {
    if Joined(ps, a, b) then ps
    else
      assert SamePair((ps + [(a, b)])[|ps|], a, b) && SamePair((ps + [(a, b)])[|ps|], b, a);
      ps + [(a, b)]
  }

  /** Earlier pairs are never touched. */
  lemma AddIfAbsentExtends<T>(ps: seq<(T, T)>, a: T, b: T)
    ensures AddIfAbsent(ps, a, b)[..|ps|] == ps
  {
  }

  /** Asking again for the same two nodes, in either order, changes nothing. */
  lemma AddIfAbsentIdempotent<T>(ps: seq<(T, T)>, a: T, b: T)
    ensures AddIfAbsent(AddIfAbsent(ps, a, b), a, b) == AddIfAbsent(ps, a, b)
    ensures AddIfAbsent(AddIfAbsent(ps, a, b), b, a) == AddIfAbsent(ps, a, b)
  {
    var r := AddIfAbsent(ps, a, b);
    assert Joined(r, a, b) && Joined(r, b, a);
  }

  /** A list in which no two pairs join the same nodes keeps that property. */
  lemma AddIfAbsentKeepsNoDuplicates<T>(ps: seq<(T, T)>, a: T, b: T)
    requires NoDuplicatePairs(ps)
    ensures NoDuplicatePairs(AddIfAbsent(ps, a, b))
  {
    if !Joined(ps, a, b) {
      var r := ps + [(a, b)];
      forall i, j | 0 <= i < j < |r|
        ensures !SamePair(r[j], r[i].0, r[i].1)
      {
        if j == |ps| {
          assert r[j] == (a, b) && r[i] == ps[i];
        }
      }
    }
  }

  /** `create_paner_line`: appends a new PANER line from `a` to `b`, whatever
      lines already exist; no history entry is saved. */
  method CreatePanerLine(scene: Scene3D, a: Node3D, b: Node3D) returns (line: Line3D)
    requires scene.Valid() && a in scene.nodes && b in scene.nodes
    modifies scene
    ensures scene.Valid()
    ensures fresh(line) && scene.lines == old(scene.lines) + [line]
    ensures line.startNode == a && line.endNode == b && line.lineType == Paner
    ensures !line.isSelected && line.isVisible && line.groupIds == {}
    ensures Ends(scene.lines) == Ends(old(scene.lines)) + [(a, b)]
    ensures scene.nodes == old(scene.nodes) && scene.history == old(scene.history)
    ensures scene.selectedNodes == old(scene.selectedNodes)
    ensures scene.selectedLines == old(scene.selectedLines)
  {
    line := scene.AddLine(a, b, Paner);
    EndsAppend(old(scene.lines), line);
  }

  /** `create_paner_line_safe`: when some line already joins `a` and `b`, in
      either direction, nothing changes and no line is returned; otherwise
      exactly one new PANER line from `a` to `b` is appended. */
  method CreatePanerLineSafe(scene: Scene3D, a: Node3D, b: Node3D) returns (line: Option<Line3D>)
    requires scene.Valid() && a in scene.nodes && b in scene.nodes
    modifies scene
    ensures scene.Valid()
    ensures line.None? <==> Joined(Ends(old(scene.lines)), a, b)
    ensures Ends(scene.lines) == AddIfAbsent(Ends(old(scene.lines)), a, b)
    ensures line.None? ==> scene.lines == old(scene.lines)
    ensures line.Some? ==> fresh(line.value) && scene.lines == old(scene.lines) + [line.value]
    ensures line.Some? ==> line.value.startNode == a && line.value.endNode == b && line.value.lineType == Paner
    ensures line.Some? ==> !line.value.isSelected && line.value.isVisible && line.value.groupIds == {}
    ensures scene.nodes == old(scene.nodes) && scene.history == old(scene.history)
    ensures scene.selectedNodes == old(scene.selectedNodes)
    ensures scene.selectedLines == old(scene.selectedLines)
  {
    var i := 0;
    while i < |scene.lines|
      invariant 0 <= i <= |scene.lines|
      invariant forall j :: 0 <= j < i ==> !SamePair(Ends(scene.lines)[j], a, b)
    {
      var existing := scene.lines[i];
      if (existing.startNode == a && existing.endNode == b) || (existing.startNode == b && existing.endNode == a) {
        assert SamePair(Ends(scene.lines)[i], a, b);
        return None;
      }
      i := i + 1;
    }
    var l := CreatePanerLine(scene, a, b);
    line := Some(l);
  }
}

=== FILE: scene.dfy ===
/** `Scene3D`: the node list, the line list, the two selection sets and the
    bounded undo history, with every operation that changes them. */
module SceneManager {
  import opened Geometry
  import opened DataStructures
  import opened Lists
  import opened Snapshots
  import opened SceneLists

  /** What `get_selected_info` reports. */
  datatype SelectedInfo = SelectedInfo(count: nat, numbers: seq<int>, averagePosition: Vec3)

  /** Running totals over a set of nodes: summed position and the numbers seen. */
  datatype Tally = Tally(sum: Vec3, numbers: multiset<int>)

  function Combine(a: Tally, b: Tally): Tally {
    Tally(a.sum.Plus(b.sum), a.numbers + b.numbers)
  }

  /** The totals of a set of nodes, independent of any visiting order. */
  ghost function TallyOf(s: set<Node3D>): (t: Tally)
    reads s
    ensures |t.numbers| == |s|
  {
    if s == {} then Tally(Origin, multiset{})
    else
      var n :| n in s;
      Combine(Tally(n.position, multiset{n.Number()}), TallyOf(s - {n}))
  }

  /** Any node can be taken out first: the totals do not depend on the order in
      which the set is visited. */
  lemma {:induction false} TallyRemove(s: set<Node3D>, n: Node3D)
    requires n in s
    ensures TallyOf(s) == Combine(Tally(n.position, multiset{n.Number()}), TallyOf(s - {n}))
    decreases |s|
  {
    var m :| m in s && TallyOf(s) == Combine(Tally(m.position, multiset{m.Number()}), TallyOf(s - {m}));
    if m != n {
      TallyRemove(s - {m}, n);
      TallyRemove(s - {n}, m);
      assert s - {m} - {n} == s - {n} - {m};
      CombineSwap(Tally(m.position, multiset{m.Number()}), Tally(n.position, multiset{n.Number()}),
                  TallyOf(s - {m} - {n}));
    }
  }

  lemma CombineSwap(a: Tally, b: Tally, c: Tally)
    ensures Combine(a, Combine(b, c)) == Combine(b, Combine(a, c))
  {
  }

  lemma CombineAssoc(a: Tally, b: Tally, c: Tally)
    ensures Combine(a, Combine(b, c)) == Combine(Combine(a, b), c)
  {
  }

  predicate SortedInts(s: seq<int>) {
    forall i, j :: 0 <= i < j < |s| ==> s[i] <= s[j]
  }

  function InsertInt(s: seq<int>, v: int): (r: seq<int>)
    ensures multiset(r) == multiset(s) + multiset{v}
  {
    if s == [] then [v]
    else if v <= s[0] then [v] + s
    else
      assert s == [s[0]] + s[1..];
      [s[0]] + InsertInt(s[1..], v)
  }

  /** Inserting a value no smaller than `lo` into a list bounded below by
      `lo` keeps the bound. */
  lemma {:induction false} InsertIntBound(s: seq<int>, v: int, lo: int)
    requires lo <= v && forall k :: 0 <= k < |s| ==> lo <= s[k]
    ensures forall k :: 0 <= k < |InsertInt(s, v)| ==> lo <= InsertInt(s, v)[k]
  {
    if s != [] && v > s[0] {
      InsertIntBound(s[1..], v, lo);
    }
  }

  lemma {:induction false} InsertIntSorted(s: seq<int>, v: int)
    requires SortedInts(s)
    ensures SortedInts(InsertInt(s, v))
  {
    if s != [] && v > s[0] {
      var t := s[1..];
      InsertIntSorted(t, v);
      InsertIntBound(t, v, s[0]);
      var rest := InsertInt(t, v);
      var r := InsertInt(s, v);
      assert r == [s[0]] + rest;
      forall i, j | 0 <= i < j < |r|
        ensures r[i] <= r[j]
      {
        assert r[j] == rest[j - 1];
        if i > 0 {
          assert r[i] == rest[i - 1];
        }
      }
    }
  }

  /** The first loop of `clear_selection`: unflags each node of `s`. */
  method DeselectNodes(s: set<Node3D>)
    modifies s
    ensures forall n :: n in s ==> !n.isSelected && n.color == White
    ensures forall n :: n in s ==>
      && n.dataPoint == old(n.dataPoint) && n.position == old(n.position)
      && n.isVisible == old(n.isVisible) && n.groupId == old(n.groupId)
  {
    var pending := s;
    while pending != {}
      invariant pending <= s
      invariant forall n :: n in s && n !in pending ==> !n.isSelected && n.color == White
      invariant forall n :: n in s ==>
        && n.dataPoint == old(n.dataPoint) && n.position == old(n.position)
        && n.isVisible == old(n.isVisible) && n.groupId == old(n.groupId)
      decreases pending
    {
      var n :| n in pending;
      n.SetSelected(false);
      pending := pending - {n};
    }
  }

  /** The second loop of `clear_selection`: unflags each line of `s`, which
      turns it back to its type colour. */
  method DeselectLines(s: set<Line3D>)
    modifies s
    ensures forall l :: l in s ==> !l.isSelected && l.color == TypeColor(l.lineType) && l.Valid()
    ensures forall l :: l in s ==> l.isVisible == old(l.isVisible) && l.groupIds == old(l.groupIds)
  {
    var pending := s;
    while pending != {}
      invariant pending <= s
      invariant forall l :: l in s && l !in pending ==>
        !l.isSelected && l.color == TypeColor(l.lineType) && l.Valid()
      invariant forall l :: l in s ==> l.isVisible == old(l.isVisible) && l.groupIds == old(l.groupIds)
      decreases pending
    {
      var l :| l in pending;
      l.SetSelected(false);
      pending := pending - {l};
    }
  }

  /** `sorted(nodes, key=number)`: the nodes of `s`, each once, in ascending
      number order. */
  method SortByNumber(s: set<Node3D>) returns (sorted: seq<Node3D>)
    ensures |sorted| == |s| && Distinct(sorted) && SortedByNumber(sorted)
    ensures ToSet(sorted) == s
  {
    sorted := [];
    var pending := s;
    while pending != {}
      invariant pending <= s
      invariant |sorted| + |pending| == |s|
      invariant Distinct(sorted) && SortedByNumber(sorted)
      invariant forall n :: n in sorted <==> n in s && n !in pending
      decreases pending
    {
      var n :| n in pending;
      InsertKeepsSorted(sorted, n);
      InsertKeepsDistinct(sorted, n);
      var next := InsertByNumber(sorted, n);
      assert forall x :: x in next <==> x in multiset(next);
      assert forall x :: x in sorted <==> x in multiset(sorted);
      sorted := next;
      pending := pending - {n};
    }
  }

  class Scene3D {
    var nodes: seq<Node3D>
    var lines: seq<Line3D>
    var selectedNodes: set<Node3D>
    var selectedLines: set<Line3D>
    var history: seq<Snapshot>
    var showGrid: bool
    var showAxes: bool
    var showNodeNumbers: bool
    var gridSize: real
    var gridSpacing: real

    /** The scene's invariant: no node or line is listed twice, every line joins
        two listed nodes, the selection sets and the listed nodes' and lines'
        own flags agree, colours follow flags, and the history is bounded and
        made of snapshots whose lines all resolve. */
    ghost predicate Valid()
      reads this, nodes, lines, selectedLines
    {
      && Distinct(nodes)
      && Distinct(lines)
      && (forall l :: l in lines ==> l.startNode in nodes && l.endNode in nodes)
      && (forall n :: n in selectedNodes ==> n in nodes)
      && (forall n :: n in nodes ==> (n in selectedNodes <==> n.isSelected) && n.Valid())
      && (forall l :: l in lines ==> (l in selectedLines <==> l.isSelected) && l.Valid())
      && (forall l :: l in selectedLines ==> l.Valid())
      && |history| <= MaxHistorySize
      && (forall s :: s in history ==> Closed(s))
    }

    /** What `save_state` records: the nodes' data and flags, the lines' endpoint
        numbers and types. In a consistent scene every saved line refers to
        saved node numbers, so the snapshot can be restored as it is. */
    function State(): (s: Snapshot)
      reads this, nodes, (set l | l in lines :: l.startNode) + (set l | l in lines :: l.endNode)
      ensures |s.nodes| == |nodes| && |s.lines| == |lines|
      ensures Valid() ==> Closed(s)
    {
      RecordsClosed(nodes, lines);
      Snapshot(NodeRecords(nodes), LineRecords(lines))
    }

    constructor ()
      ensures Valid()
      ensures nodes == [] && lines == [] && selectedNodes == {} && selectedLines == {}
      ensures history == []
      ensures showGrid && showAxes && !showNodeNumbers
      ensures gridSize == 20.0 && gridSpacing == 1.0
    {
      nodes := [];
      lines := [];
      selectedNodes := {};
      selectedLines := {};
      history := [];
      showGrid := true;
      showAxes := true;
      showNodeNumbers := false;
      gridSize := 20.0;
      gridSpacing := 1.0;
    }

    /** `clear`: empties nodes, lines and both selections; keeps the history. */
    method Clear()
      requires Valid()
      modifies this
      ensures Valid()
      ensures nodes == [] && lines == [] && selectedNodes == {} && selectedLines == {}
      ensures history == old(history)
    {
      nodes := [];
      lines := [];
      selectedNodes := {};
      selectedLines := {};
    }

    /** `add_node`: appends a fresh, unselected node for `dp`. */
    method AddNode(dp: DataPoint) returns (node: Node3D)
      requires Valid()
      modifies this
      ensures Valid()
      ensures fresh(node) && nodes == old(nodes) + [node]
      ensures node.dataPoint == dp && !node.isSelected && node.isVisible && node.groupId == 0
      ensures lines == old(lines) && history == old(history)
      ensures selectedNodes == old(selectedNodes) && selectedLines == old(selectedLines)
    {
      node := new Node3D(dp);
      nodes := nodes + [node];
    }

    /** `add_line`: appends a fresh, unselected line between two listed nodes. */
    method AddLine(start: Node3D, end: Node3D, t: LineType) returns (line: Line3D)
      requires Valid() && start in nodes && end in nodes
      modifies this
      ensures Valid()
      ensures fresh(line) && lines == old(lines) + [line]
      ensures line.startNode == start && line.endNode == end && line.lineType == t
      ensures AsBuilt(line) && line.color == TypeColor(t)
      ensures nodes == old(nodes) && history == old(history)
      ensures selectedNodes == old(selectedNodes) && selectedLines == old(selectedLines)
    {
      line := new Line3D(start, end, t);
      lines := lines + [line];
    }

    /** `remove_node`: drops the node and every line touching it, and the node
        from the node selection; an unlisted node changes nothing. The line
        selection is left as it is, even for removed lines. */
    method RemoveNode(node: Node3D)
      requires Valid()
      modifies this
      ensures Valid()
      ensures node !in old(nodes) ==>
        nodes == old(nodes) && lines == old(lines) && selectedNodes == old(selectedNodes)
      ensures node in old(nodes) ==>
        && nodes == Exclude(old(nodes), {node})
        && lines == Untouched(old(lines), {node})
        && selectedNodes == old(selectedNodes) - {node}
      ensures selectedLines == old(selectedLines) && history == old(history)
    {
      if node in nodes {
        RemoveLinesTouching(node);
        UntouchedMembers(old(lines), {node});
        DropNode(node);
      }
    }

    /** The rest of `remove_node` once no line touches `node`: it leaves the
        node list and the node selection. */
    method DropNode(node: Node3D)
      requires Valid() && node in nodes
      requires forall l :: l in lines ==> !Touches(l, {node})
      modifies this
      ensures Valid()
      ensures nodes == Exclude(old(nodes), {node}) && selectedNodes == old(selectedNodes) - {node}
      ensures lines == old(lines) && selectedLines == old(selectedLines) && history == old(history)
    {
      if node in selectedNodes {
        selectedNodes := selectedNodes - {node};
      }
      RemoveFirstDistinct(nodes, node);
      ExcludeDistinct(nodes, {node});
      ExcludeMembers(nodes, {node});
      nodes := RemoveFirst(nodes, node);
    }

    /** The loop of `remove_node` that removes, one `list.remove` at a time,
        every line touching `node`. */
    method RemoveLinesTouching(node: Node3D)
      requires Distinct(lines)
      modifies this
      ensures lines == Untouched(old(lines), {node}) && Distinct(lines)
      ensures nodes == old(nodes) && selectedNodes == old(selectedNodes)
      ensures selectedLines == old(selectedLines) && history == old(history)
    {
      var toRemove := Touching(lines, {node});
      ghost var removed: set<Line3D> := {};
      ExcludeNothing(lines, {});
      for i := 0 to |toRemove|
        invariant removed == ToSet(toRemove[..i])
        invariant lines == Exclude(old(lines), removed)
        invariant Distinct(lines)
        invariant nodes == old(nodes) && selectedNodes == old(selectedNodes)
        invariant selectedLines == old(selectedLines) && history == old(history)
      {
        RemoveFirstDistinct(lines, toRemove[i]);
        ExcludeTwice(old(lines), removed, {toRemove[i]});
        ExcludeDistinct(lines, {toRemove[i]});
        lines := RemoveFirst(lines, toRemove[i]);
        ToSetPrefix(toRemove, i);
        removed := removed + {toRemove[i]};
      }
      assert toRemove[..|toRemove|] == toRemove;
      ExcludeTouching(old(lines), {node}, removed);
    }

    /** `save_state`: appends the current state to the history, dropping the
        oldest entry beyond `MaxHistorySize`. */
    method SaveState()
      requires Valid()
      modifies this
      ensures Valid()
      ensures history == Push(old(history), old(State()))
      ensures nodes == old(nodes) && lines == old(lines)
      ensures selectedNodes == old(selectedNodes) && selectedLines == old(selectedLines)
    {
      var state := State();
      history := history + [state];
      if |history| > MaxHistorySize {
        history := history[1..];
      }
    }

    /** `remove_selected_nodes`: with nothing selected, nothing happens;
        otherwise the state is saved once and every selected node is removed
        with its lines, leaving the node selection empty. */
    method RemoveSelectedNodes()
      requires Valid()
      modifies this
      ensures Valid()
      ensures old(selectedNodes) == {} ==>
        nodes == old(nodes) && lines == old(lines) && history == old(history)
      ensures old(selectedNodes) != {} ==>
        && history == Push(old(history), old(State()))
        && nodes == Exclude(old(nodes), old(selectedNodes))
        && lines == Untouched(old(lines), old(selectedNodes))
      ensures selectedNodes == {} && selectedLines == old(selectedLines)
    {
      if selectedNodes == {} {
        return;
      }
      SaveState();
      RemoveNodes(selectedNodes);
    }

    /** The loop of `remove_selected_nodes`: `remove_node` on each node of
        `toRemove`, the whole selection. */
    method RemoveNodes(toRemove: set<Node3D>)
      requires Valid() && selectedNodes == toRemove
      modifies this
      ensures Valid()
      ensures nodes == Exclude(old(nodes), toRemove) && lines == Untouched(old(lines), toRemove)
      ensures selectedNodes == {} && selectedLines == old(selectedLines) && history == old(history)
    {
      var pending := toRemove;
      ghost var removed: set<Node3D> := {};
      ExcludeNothing(nodes, {});
      UntouchedNothing(lines);
      while pending != {}
        invariant Valid()
        invariant pending + removed == toRemove && pending !! removed
        invariant selectedNodes == pending
        invariant nodes == Exclude(old(nodes), removed)
        invariant lines == Untouched(old(lines), removed)
        invariant selectedLines == old(selectedLines) && history == old(history)
        decreases pending
      {
        var n :| n in pending;
        RemoveNode(n);
        ExcludeTwice(old(nodes), removed, {n});
        UntouchedTwice(old(lines), removed, {n});
        pending := pending - {n};
        removed := removed + {n};
      }
    }

    /** `select_node`: a plain click selects just `node`; with
        `addToSelection` the click toggles `node` and keeps the rest. */
    method SelectNode(node: Node3D, addToSelection: bool := false)
      requires Valid() && node in nodes
      modifies this, nodes, selectedLines
      ensures Valid()
      ensures nodes == old(nodes) && lines == old(lines) && history == old(history)
      ensures NodeDataKept(nodes)
      ensures !addToSelection ==> selectedNodes == {node} && selectedLines == {}
      ensures addToSelection && node in old(selectedNodes) ==>
        selectedNodes == old(selectedNodes) - {node} && selectedLines == old(selectedLines)
      ensures addToSelection && node !in old(selectedNodes) ==>
        selectedNodes == old(selectedNodes) + {node} && selectedLines == old(selectedLines)
      ensures forall l :: l in old(selectedLines) ==>
        if addToSelection then l.isSelected == old(l.isSelected) && l.color == old(l.color)
        else !l.isSelected && l.color == TypeColor(l.lineType)
      ensures forall l :: l in old(selectedLines) ==>
        l.isVisible == old(l.isVisible) && l.groupIds == old(l.groupIds)
    {
      if !addToSelection {
        ClearSelection();
      }
      if node in selectedNodes {
        selectedNodes := selectedNodes - {node};
        node.SetSelected(false);
      } else {
        Select(node);
      }
    }

    /** Adds a listed node that is not selected to the selection and flags it. */
    method Select(node: Node3D)
      requires Valid() && node in nodes && node !in selectedNodes
      modifies this, node
      ensures Valid()
      ensures selectedNodes == old(selectedNodes) + {node} && node.isSelected
      ensures nodes == old(nodes) && lines == old(lines)
      ensures selectedLines == old(selectedLines) && history == old(history)
      ensures node.dataPoint == old(node.dataPoint) && node.position == old(node.position)
      ensures node.isVisible == old(node.isVisible) && node.groupId == old(node.groupId)
    {
      selectedNodes := selectedNodes + {node};
      node.SetSelected(true);
    }

    /** `select_all_nodes`: every node is selected and flagged. */
    method SelectAllNodes()
      requires Valid()
      modifies this, nodes
      ensures Valid()
      ensures nodes == old(nodes) && lines == old(lines) && history == old(history)
      ensures selectedNodes == ToSet(nodes) && selectedLines == old(selectedLines)
      ensures NodeDataKept(nodes)
    {
      selectedNodes := ToSet(nodes);
      for i := 0 to |nodes|
        invariant forall j :: 0 <= j < |nodes| ==>
          nodes[j].Valid() && (nodes[j].isSelected <==> j < i || old(nodes[j].isSelected))
        invariant NodeDataKept(nodes)
        modifies nodes
      {
        nodes[i].SetSelected(true);
      }
    }

    /** `clear_selection`: unflags every selected node and line and empties
        both selections. */
    method ClearSelection()
      requires Valid()
      modifies this, nodes, selectedLines
      ensures Valid()
      ensures nodes == old(nodes) && lines == old(lines) && history == old(history)
      ensures selectedNodes == {} && selectedLines == {}
      ensures forall n :: n in nodes ==> !n.isSelected
      ensures NodeDataKept(nodes)
      ensures forall l :: l in old(selectedLines) ==> !l.isSelected && l.color == TypeColor(l.lineType)
      ensures forall l :: l in old(selectedLines) ==>
        l.isVisible == old(l.isVisible) && l.groupIds == old(l.groupIds)
    {
      DeselectNodes(selectedNodes);
      DeselectLines(selectedLines);
      selectedNodes := {};
      selectedLines := {};
    }

    /** `select_nodes_in_region`: the selection becomes exactly the nodes whose
        position lies in the closed box from `lo` to `hi`. */
    method SelectNodesInRegion(lo: Vec3, hi: Vec3)
      requires Valid()
      modifies this, nodes, selectedLines
      ensures Valid()
      ensures nodes == old(nodes) && lines == old(lines) && history == old(history)
      ensures selectedNodes == set n | n in nodes && InBox(n.position, lo, hi)
      ensures selectedLines == {}
      ensures forall l :: l in old(selectedLines) ==> !l.isSelected && l.color == TypeColor(l.lineType)
      ensures forall l :: l in old(selectedLines) ==>
        l.isVisible == old(l.isVisible) && l.groupIds == old(l.groupIds)
      ensures NodeDataKept(nodes)
    {
      ClearSelection();
      for i := 0 to |nodes|
        invariant Valid()
        invariant nodes == old(nodes) && lines == old(lines) && history == old(history)
        invariant selectedLines == {}
        invariant selectedNodes == set n | n in nodes[..i] && InBox(n.position, lo, hi)
        invariant forall j :: i <= j < |nodes| ==> !nodes[j].isSelected
        invariant NodeDataKept(nodes)
        invariant forall l :: l in old(selectedLines) ==> !l.isSelected && l.color == TypeColor(l.lineType)
        invariant forall l :: l in old(selectedLines) ==>
          l.isVisible == old(l.isVisible) && l.groupIds == old(l.groupIds)
      {
        SelectIfInRegion(i, lo, hi);
      }
      assert nodes[..|nodes|] == nodes;
    }

    /** One pass of the loop of `select_nodes_in_region`: the `i`-th node joins
        the selection when it lies in the box. */
    method SelectIfInRegion(i: nat, lo: Vec3, hi: Vec3)
      requires Valid() && i < |nodes|
      requires selectedNodes == set n | n in nodes[..i] && InBox(n.position, lo, hi)
      requires forall j :: i <= j < |nodes| ==> !nodes[j].isSelected
      modifies this, nodes[i]
      ensures Valid()
      ensures nodes == old(nodes) && lines == old(lines) && history == old(history)
      ensures selectedLines == old(selectedLines)
      ensures selectedNodes == set n | n in nodes[..i + 1] && InBox(n.position, lo, hi)
      ensures forall j :: i < j < |nodes| ==> !nodes[j].isSelected
      ensures NodeDataKept(nodes)
    {
      var node := nodes[i];
      assert nodes[..i + 1] == nodes[..i] + [node];
      assert node !in nodes[..i];
      if InBox(node.position, lo, hi) {
        Select(node);
      }
    }

    /** `connect_selected_nodes`: with fewer than two nodes selected nothing
        happens; otherwise the state is saved and the selected nodes, in
        ascending number order, are joined into the polyline of `t` lines that
        closes back to the first node when there are more than two. */
    method ConnectSelectedNodes(t: LineType) returns (ok: bool, ghost order: seq<Node3D>, ghost created: seq<Line3D>)
      requires Valid()
      modifies this
      ensures Valid()
      ensures ok <==> |old(selectedNodes)| >= 2
      ensures !ok ==> lines == old(lines) && history == old(history)
      ensures ok ==> history == Push(old(history), old(State()))
      ensures ok ==> && |order| == |old(selectedNodes)| && Distinct(order)
                     && ToSet(order) == old(selectedNodes) && SortedByNumber(order)
      ensures ok ==> lines == old(lines) + created && Ends(created) == Polyline(order)
      ensures OfType(created, t) && AllBuilt(created)
      ensures nodes == old(nodes) && selectedNodes == old(selectedNodes)
      ensures selectedLines == old(selectedLines)
    {
      if |selectedNodes| < 2 {
        return false, [], [];
      }
      SaveState();
      var sorted := SortByNumber(selectedNodes);
      label Sorted:
      assert forall i :: 0 <= i < |sorted| ==> sorted[i] in ToSet(sorted);
      PolylineWithin(sorted, selectedNodes);
      created := AddLines(Polyline(sorted), t);
      SortedByNumberKept@Sorted(sorted);
      ok, order := true, sorted;
    }

    /** The loop of `connect_selected_nodes`: one new `t` line per pair, in order. */
    method AddLines(pairs: seq<(Node3D, Node3D)>, t: LineType) returns (ghost added: seq<Line3D>)
      requires Valid()
      requires forall j :: 0 <= j < |pairs| ==> pairs[j].0 in nodes && pairs[j].1 in nodes
      modifies this
      ensures Valid()
      ensures nodes == old(nodes) && selectedNodes == old(selectedNodes)
      ensures selectedLines == old(selectedLines) && history == old(history)
      ensures lines == old(lines) + added && Ends(added) == pairs
      ensures OfType(added, t) && AllBuilt(added)
    {
      added := [];
      for i := 0 to |pairs|
        invariant Valid()
        invariant nodes == old(nodes) && selectedNodes == old(selectedNodes)
        invariant selectedLines == old(selectedLines) && history == old(history)
        invariant lines == old(lines) + added
        invariant Ends(added) == pairs[..i]
        invariant OfType(added, t) && AllBuilt(added)
      {
        var line := AddLine(pairs[i].0, pairs[i].1, t);
        EndsStep(added, line, pairs, i);
        BuiltStep(added, line, t);
        AppendLast(old(lines), added, line);
        added := added + [line];
      }
      assert pairs[..|pairs|] == pairs;
    }

    /** The node loop of `undo`: recreates the saved nodes in order, reselects
        the ones saved as selected, and maps each saved number to the node
        restored from the last saved entry with that number. */
    method RestoreNodes(recs: seq<NodeRecord>) returns (nodeMap: map<int, Node3D>)
      requires Valid() && nodes == [] && lines == [] && selectedNodes == {} && selectedLines == {}
      modifies this
      ensures Valid()
      ensures NodeRecords(nodes) == recs
      ensures lines == [] && selectedLines == {} && history == old(history)
      ensures forall j :: 0 <= j < |nodes| ==> nodes[j].isVisible && nodes[j].groupId == 0
      ensures nodeMap.Keys == Numbers(recs)
      ensures MapsNumbers(nodeMap, nodes)
      ensures |nodes| == |recs|
      ensures forall j :: LastNumbered(recs, j) ==>
        recs[j].point.number in nodeMap && nodeMap[recs[j].point.number] == nodes[j]
    {
      nodeMap := RecreateNodes(recs);
      NumberMapKeys(recs, nodes);
      NumberMapLast(recs, nodes);
      LastMapNumbers(recs, nodes, nodeMap);
      NodeRecordsAt(nodes);
    }

    /** The loop itself: node `j` is recreated from saved entry `j`, and the
        map is filled in saved order, a later entry overwriting an earlier one
        with the same number. */
    method RecreateNodes(recs: seq<NodeRecord>) returns (nodeMap: map<int, Node3D>)
      requires Valid() && nodes == [] && lines == [] && selectedNodes == {} && selectedLines == {}
      modifies this
      ensures Valid()
      ensures |nodes| == |recs| && lines == [] && selectedLines == {} && history == old(history)
      ensures forall j :: 0 <= j < |recs| ==>
        && nodes[j].dataPoint == recs[j].point && nodes[j].isSelected == recs[j].isSelected
        && nodes[j].isVisible && nodes[j].groupId == 0
      ensures nodeMap == NumberMap(recs, nodes)
    {
      nodeMap := map[];
      for i := 0 to |recs|
        invariant Valid()
        invariant |nodes| == i && lines == [] && selectedLines == {} && history == old(history)
        invariant forall j :: 0 <= j < i ==>
          && nodes[j].dataPoint == recs[j].point && nodes[j].isSelected == recs[j].isSelected
          && nodes[j].isVisible && nodes[j].groupId == 0
        invariant nodeMap == NumberMap(recs[..i], nodes)
      {
        ghost var before := nodes;
        var node := RestoreNode(recs[i]);
        nodeMap := nodeMap[recs[i].point.number := node];
        NumberMapAppend(recs[..i], before, recs[i], node);
        assert recs[..i + 1] == recs[..i] + [recs[i]];
      }
      assert recs[..|recs|] == recs;
    }

    /** One pass of the node loop of `undo`: adds the saved node and, when it
        was saved as selected, selects it. */
    method RestoreNode(rec: NodeRecord) returns (node: Node3D)
      requires Valid()
      modifies this
      ensures Valid()
      ensures fresh(node) && nodes == old(nodes) + [node]
      ensures node.dataPoint == rec.point && node.isSelected == rec.isSelected
      ensures node.isVisible && node.groupId == 0
      ensures lines == old(lines) && selectedLines == old(selectedLines) && history == old(history)
    {
      node := AddNode(rec.point);
      if rec.isSelected {
        Select(node);
      }
    }

    /** The line loop of `undo`: recreates, in saved order, each line whose two
        endpoint numbers are in `nodeMap`, and skips the others. */
    method RestoreLines(recs: seq<LineRecord>, nodeMap: map<int, Node3D>)
      requires Valid() && lines == []
      requires MapsNumbers(nodeMap, nodes)
      modifies this
      ensures Valid()
      ensures nodes == old(nodes) && selectedNodes == old(selectedNodes)
      ensures selectedLines == old(selectedLines) && history == old(history)
      ensures NodeRecords(nodes) == old(NodeRecords(nodes))
      ensures LineRecords(lines) == KeepResolvable(recs, nodeMap.Keys)
      ensures AllBuilt(lines)
      ensures EndsIn(lines, nodeMap, KeepResolvable(recs, nodeMap.Keys))
    {
      for i := 0 to |recs|
        invariant Valid()
        invariant nodes == old(nodes) && selectedNodes == old(selectedNodes)
        invariant selectedLines == old(selectedLines) && history == old(history)
        invariant NodeRecords(nodes) == old(NodeRecords(nodes))
        invariant LineRecords(lines) == KeepResolvable(recs[..i], nodeMap.Keys)
        invariant AllBuilt(lines)
        invariant EndsIn(lines, nodeMap, KeepResolvable(recs[..i], nodeMap.Keys))
      {
        RestoreLine(recs[i], nodeMap, KeepResolvable(recs[..i], nodeMap.Keys));
        KeepResolvableStep(recs, i, nodeMap.Keys);
      }
      assert recs[..|recs|] == recs;
    }

    /** One pass of the line loop of `undo`: recreates the line when both its
        endpoint numbers are mapped, and skips it otherwise. */
    method RestoreLine(r: LineRecord, nodeMap: map<int, Node3D>, ghost done: seq<LineRecord>)
      requires Valid()
      requires MapsNumbers(nodeMap, nodes)
      modifies this
      ensures Valid()
      ensures nodes == old(nodes) && selectedNodes == old(selectedNodes)
      ensures selectedLines == old(selectedLines) && history == old(history)
      ensures NodeRecords(nodes) == old(NodeRecords(nodes))
      ensures LineRecords(lines)
              == old(LineRecords(lines)) + (if Resolvable(r, nodeMap.Keys) then [r] else [])
      ensures old(AllBuilt(lines)) ==> AllBuilt(lines)
      ensures EndsIn(old(lines), nodeMap, done) ==>
        EndsIn(lines, nodeMap, done + (if Resolvable(r, nodeMap.Keys) then [r] else []))
    {
      if r.startNumber in nodeMap && r.endNumber in nodeMap {
        var line := AddLine(nodeMap[r.startNumber], nodeMap[r.endNumber], r.lineType);
        EndsInAppend(old(lines), nodeMap, done, line, r);
        LineRecordsAppend(old(lines), line);
        LineRecordsUnchanged(old(lines));
      } else {
        assert done + [] == done;
      }
      NodeRecordsUnchanged(nodes);
    }

    /** `undo`: with an empty history nothing happens; otherwise the newest
        snapshot is popped and the scene rebuilt from it with fresh nodes and
        lines, so that the scene's state is that snapshot again. Where several
        saved nodes share a number, the recreated lines attach to the node of
        the last of them. */
    method Undo() returns (ok: bool)
      requires Valid()
      modifies this
      ensures Valid()
      ensures ok <==> old(history) != []
      ensures !ok ==> && nodes == old(nodes) && lines == old(lines) && history == old(history)
                      && selectedNodes == old(selectedNodes) && selectedLines == old(selectedLines)
      ensures ok ==> history == old(history)[..|old(history)| - 1]
      ensures ok ==> State() == Restore(old(history)[|old(history)| - 1])
      ensures ok ==> State() == old(history)[|old(history)| - 1]
      ensures ok ==> selectedLines == {}
      ensures ok ==> forall n :: n in nodes ==> n.isVisible && n.groupId == 0
      ensures ok ==> AllBuilt(lines)
      ensures ok ==> var s := old(history)[|old(history)| - 1];
        forall i, j :: 0 <= i < |lines| && LastNumbered(s.nodes, j) ==>
          && (s.nodes[j].point.number == lines[i].startNode.Number() ==> lines[i].startNode == nodes[j])
          && (s.nodes[j].point.number == lines[i].endNode.Number() ==> lines[i].endNode == nodes[j])
    {
      if history == [] {
        return false;
      }
      var state := history[|history| - 1];
      assert state in history;
      history := history[..|history| - 1];
      Clear();
      var nodeMap := RestoreNodes(state.nodes);
      RestoreLines(state.lines, nodeMap);
      EndsAtLastNumbered(state.nodes, nodes, lines, nodeMap, KeepResolvable(state.lines, nodeMap.Keys));
      RestoreClosed(state);
      ok := true;
    }

    /** `get_bounds` with its widening applied per axis (see `FramingBounds`):
        the unit box for an empty scene, otherwise a box that holds every node,
        is centred on the tight box, and on each axis is the tight width, or
        1.0 where that is below `MinSpan`. */
    function GetBounds(): (b: Box)
      reads this, nodes
      ensures nodes == [] ==> b == UnitBox
      ensures forall n :: n in nodes ==> InBox(n.position, b.lo, b.hi)
      ensures nodes != [] ==>
        b.hi.x - b.lo.x >= MinSpan && b.hi.y - b.lo.y >= MinSpan && b.hi.z - b.lo.z >= MinSpan
      ensures nodes != [] ==>
        var lo, hi := MinCorner(Positions(nodes)), MaxCorner(Positions(nodes));
        && Midpoint(b.lo, b.hi) == Midpoint(lo, hi)
        && b.hi.x - b.lo.x == FramedWidth(lo.x, hi.x)
        && b.hi.y - b.lo.y == FramedWidth(lo.y, hi.y)
        && b.hi.z - b.lo.z == FramedWidth(lo.z, hi.z)
      ensures nodes != [] && !AnyThin(MinCorner(Positions(nodes)), MaxCorner(Positions(nodes))) ==>
        b == SceneBounds(Positions(nodes))
    {
      var ps := Positions(nodes);
      if nodes == [] then UnitBox
      else
        FramingBoundsContainAll(ps);
        FramingBoundsShape(ps);
        FramingBoundsAgreeWhenWide(ps);
        NodesInBox(nodes, FramingBounds(ps).lo, FramingBounds(ps).hi);
        FramingBounds(ps)
    }

    /** `get_center`: the mean node position, the origin for an empty scene. */
    function GetCenter(): (c: Vec3)
      reads this, nodes
      ensures nodes == [] ==> c == Origin
      ensures nodes != [] ==> InBox(c, MinCorner(Positions(nodes)), MaxCorner(Positions(nodes)))
    {
      if nodes == [] then Origin
      else
        Mean(Positions(nodes))
    }

    /** `get_selected_info`: how many nodes are selected, their numbers in
        ascending order, and their mean position (the origin when none). */
    method GetSelectedInfo() returns (info: SelectedInfo)
      ensures info.count == |selectedNodes|
      ensures SortedInts(info.numbers) && multiset(info.numbers) == TallyOf(selectedNodes).numbers
      ensures selectedNodes == {} ==> info.averagePosition == Origin
      ensures selectedNodes != {} ==>
        info.averagePosition == TallyOf(selectedNodes).sum.DividedBy(|selectedNodes| as real)
    {
      if selectedNodes == {} {
        return SelectedInfo(0, [], Origin);
      }
      var pending := selectedNodes;
      var sum := Origin;
      var numbers: seq<int> := [];
      assert Combine(Tally(sum, multiset(numbers)), TallyOf(pending)) == TallyOf(pending);
      while pending != {}
        invariant pending <= selectedNodes
        invariant TallyOf(selectedNodes) == Combine(Tally(sum, multiset(numbers)), TallyOf(pending))
        invariant SortedInts(numbers)
        decreases pending
      {
        var n :| n in pending;
        var one := Tally(n.position, multiset{n.Number()});
        TallyRemove(pending, n);
        CombineAssoc(Tally(sum, multiset(numbers)), one, TallyOf(pending - {n}));
        InsertIntSorted(numbers, n.Number());
        sum := sum.Plus(n.position);
        numbers := InsertInt(numbers, n.Number());
        pending := pending - {n};
      }
      info := SelectedInfo(|selectedNodes|, numbers, sum.DividedBy(|selectedNodes| as real));
    }
  }
}

=== FILE: scene_lists.dfy ===
/** Value-level views of the scene's node and line lists: which lines touch a set
    of nodes, what `save_state` records of a list, the ascending-number order
    `connect_selected_nodes` sorts into, and the polyline it builds. */
module SceneLists {
  import opened Geometry
  import opened DataStructures
  import opened Lists
  import opened Snapshots

  /** The line has an endpoint among `gone`. */
  predicate Touches(l: Line3D, gone: set<Node3D>) {
    l.startNode in gone || l.endNode in gone
  }

  /** The lines that touch `gone`, in list order (`lines_to_remove`). */
  function Touching(ls: seq<Line3D>, gone: set<Node3D>): (r: seq<Line3D>)
    ensures forall i :: 0 <= i < |r| ==> r[i] in ls && Touches(r[i], gone)
    ensures forall i :: 0 <= i < |ls| && Touches(ls[i], gone) ==> ls[i] in r
  {
    if ls == [] then []
    else (if Touches(ls[0], gone) then [ls[0]] else []) + Touching(ls[1..], gone)
  }

  /** The lines that touch none of `gone`, in list order. */
  function Untouched(ls: seq<Line3D>, gone: set<Node3D>): (r: seq<Line3D>)
    ensures |r| <= |ls|
  {
    if ls == [] then []
    else (if Touches(ls[0], gone) then [] else [ls[0]]) + Untouched(ls[1..], gone)
  }

  /** What survives: exactly the lines of `ls` that touch none of `gone`. */
  lemma {:induction false} UntouchedMembers(ls: seq<Line3D>, gone: set<Node3D>)
    ensures forall l :: l in Untouched(ls, gone) <==> l in ls && !Touches(l, gone)
  {
    if ls != [] {
      UntouchedMembers(ls[1..], gone);
      assert ls == [ls[0]] + ls[1..];
    }
  }

  /** Removing nodes together with the lines that touch them leaves every
      remaining line between two remaining nodes. */
  lemma EndpointsAfterRemoval(ns: seq<Node3D>, ls: seq<Line3D>, gone: set<Node3D>)
    requires forall l :: l in ls ==> l.startNode in ns && l.endNode in ns
    ensures forall l :: l in Untouched(ls, gone) ==>
      l.startNode in Exclude(ns, gone) && l.endNode in Exclude(ns, gone)
  {
    UntouchedMembers(ls, gone);
    ExcludeMembers(ns, gone);
  }

  /** Removing exactly the touching lines leaves the untouched ones in order. */
  lemma {:induction false} ExcludeTouching(ls: seq<Line3D>, gone: set<Node3D>, removed: set<Line3D>)
    requires forall i :: 0 <= i < |ls| ==> (ls[i] in removed <==> Touches(ls[i], gone))
    ensures Exclude(ls, removed) == Untouched(ls, gone)
  {
    if ls != [] {
      ExcludeTouching(ls[1..], gone, removed);
    }
  }

  lemma UntouchedNothing(ls: seq<Line3D>)
    ensures Untouched(ls, {}) == ls
  {
    if ls != [] {
      UntouchedNothing(ls[1..]);
    }
  }

  /** Cascading the removal of two node sets one after the other is cascading
      the removal of their union. */
  lemma {:induction false} UntouchedTwice(ls: seq<Line3D>, a: set<Node3D>, b: set<Node3D>)
    ensures Untouched(Untouched(ls, a), b) == Untouched(ls, a + b)
  {
    if ls != [] {
      UntouchedTwice(ls[1..], a, b);
      if Touches(ls[0], a) {
        assert Untouched(ls, a) == Untouched(ls[1..], a);
      } else {
        assert Untouched(ls, a) == [ls[0]] + Untouched(ls[1..], a);
        assert Untouched(ls, a)[1..] == Untouched(ls[1..], a);
      }
    }
  }

  lemma {:induction false} UntouchedDistinct(ls: seq<Line3D>, gone: set<Node3D>)
    requires Distinct(ls)
    ensures Distinct(Untouched(ls, gone))
  {
    if ls != [] {
      UntouchedDistinct(ls[1..], gone);
      UntouchedMembers(ls[1..], gone);
      assert ls[0] !in ls[1..];
    }
  }

  /** The node part of a snapshot: each node's data point and selection flag. */
  function NodeRecords(ns: seq<Node3D>): (r: seq<NodeRecord>)
    reads ns
    ensures |r| == |ns|
  {
    if ns == [] then []
    else NodeRecords(ns[..|ns| - 1]) + [NodeRecord(ns[|ns| - 1].dataPoint, ns[|ns| - 1].isSelected)]
  }

  lemma {:induction false} NodeRecordsAt(ns: seq<Node3D>)
    ensures forall i :: 0 <= i < |ns| ==>
      NodeRecords(ns)[i] == NodeRecord(ns[i].dataPoint, ns[i].isSelected)
  {
    if ns != [] {
      NodeRecordsAt(ns[..|ns| - 1]);
    }
  }

  lemma NodeRecordsAppend(ns: seq<Node3D>, n: Node3D)
    ensures NodeRecords(ns + [n]) == NodeRecords(ns) + [NodeRecord(n.dataPoint, n.isSelected)]
  {
    assert (ns + [n])[..|ns|] == ns;
  }

  /** The line part of a snapshot: each line's endpoint numbers and type. */
  function LineRecords(ls: seq<Line3D>): (r: seq<LineRecord>)
    reads (set l | l in ls :: l.startNode) + (set l | l in ls :: l.endNode)
    ensures |r| == |ls|
  {
    if ls == [] then []
    else
      var l := ls[|ls| - 1];
      LineRecords(ls[..|ls| - 1]) + [LineRecord(l.startNode.dataPoint.number, l.endNode.dataPoint.number, l.lineType)]
  }

  /** Records of lines that join listed nodes refer only to recorded numbers. */
  lemma RecordsClosed(ns: seq<Node3D>, ls: seq<Line3D>)
    ensures (forall l :: l in ls ==> l.startNode in ns && l.endNode in ns) ==>
      Closed(Snapshot(NodeRecords(ns), LineRecords(ls)))
  {
    if forall l :: l in ls ==> l.startNode in ns && l.endNode in ns {
      var s := Snapshot(NodeRecords(ns), LineRecords(ls));
      NodeRecordsAt(ns);
      LineRecordsAt(ls);
      forall r | r in s.lines
        ensures Resolvable(r, Numbers(s.nodes))
      {
        var i :| 0 <= i < |ls| && s.lines[i] == r;
        var a, b := ls[i].startNode, ls[i].endNode;
        var ja :| 0 <= ja < |ns| && ns[ja] == a;
        var jb :| 0 <= jb < |ns| && ns[jb] == b;
        assert s.nodes[ja].point.number == r.startNumber;
        assert s.nodes[jb].point.number == r.endNumber;
      }
    }
  }

  lemma {:induction false} LineRecordsAt(ls: seq<Line3D>)
    ensures forall i :: 0 <= i < |ls| ==>
      LineRecords(ls)[i] == LineRecord(ls[i].startNode.Number(), ls[i].endNode.Number(), ls[i].lineType)
  {
    if ls != [] {
      LineRecordsAt(ls[..|ls| - 1]);
    }
  }

  lemma LineRecordsAppend(ls: seq<Line3D>, l: Line3D)
    ensures LineRecords(ls + [l]) ==
      LineRecords(ls) + [LineRecord(l.startNode.Number(), l.endNode.Number(), l.lineType)]
  {
    assert (ls + [l])[..|ls|] == ls;
  }

  /** The line records depend only on the endpoint nodes. */
  twostate lemma LineRecordsUnchanged(ls: seq<Line3D>)
    requires forall l :: l in ls ==> unchanged(l.startNode) && unchanged(l.endNode)
    ensures LineRecords(ls) == old(LineRecords(ls))
  {
  }

  /** The node records depend only on the nodes. */
  twostate lemma NodeRecordsUnchanged(ns: seq<Node3D>)
    requires forall i :: 0 <= i < |ns| ==> unchanged(ns[i])
    ensures NodeRecords(ns) == old(NodeRecords(ns))
  {
    if ns != [] {
      NodeRecordsUnchanged(ns[..|ns| - 1]);
    }
  }

  /** The numbers of the nodes, in list order. */
  function NumbersOf(ns: seq<Node3D>): (r: seq<int>)
    reads ns
    ensures |r| == |ns|
    ensures forall i :: 0 <= i < |ns| ==> r[i] == ns[i].Number()
  {
    if ns == [] then [] else [ns[0].Number()] + NumbersOf(ns[1..])
  }

  /** Line `i` joins the two nodes that `m` maps the endpoint numbers of
      record `i` to. */
  predicate EndsIn(ls: seq<Line3D>, m: map<int, Node3D>, rs: seq<LineRecord>) {
    && |ls| == |rs|
    && forall i :: 0 <= i < |ls| ==>
      && rs[i].startNumber in m && m[rs[i].startNumber] == ls[i].startNode
      && rs[i].endNumber in m && m[rs[i].endNumber] == ls[i].endNode
  }

  /** The number map the node loop of `undo` builds: entry `j` of the saved
      nodes enters `ns[j]` under its number, a later entry overwriting an
      earlier one with the same number. */
  function NumberMap(rs: seq<NodeRecord>, ns: seq<Node3D>): map<int, Node3D>
    requires |rs| == |ns|
  {
    if rs == [] then map[]
    else
      var n := |rs| - 1;
      NumberMap(rs[..n], ns[..n])[rs[n].point.number := ns[n]]
  }

  lemma NumberMapAppend(rs: seq<NodeRecord>, ns: seq<Node3D>, r: NodeRecord, n: Node3D)
    requires |rs| == |ns|
    ensures NumberMap(rs + [r], ns + [n]) == NumberMap(rs, ns)[r.point.number := n]
  {
    assert (rs + [r])[..|rs|] == rs && (ns + [n])[..|ns|] == ns;
  }

  /** The number map has exactly the saved numbers as keys. */
  lemma {:induction false} NumberMapKeys(rs: seq<NodeRecord>, ns: seq<Node3D>)
    requires |rs| == |ns|
    ensures NumberMap(rs, ns).Keys == Numbers(rs)
  {
    if rs != [] {
      var n := |rs| - 1;
      NumberMapKeys(rs[..n], ns[..n]);
      assert rs == rs[..n] + [rs[n]];
      assert Numbers(rs) == Numbers(rs[..n]) + {rs[n].point.number};
    }
  }

  /** The number map sends each saved number to the node of its last entry. */
  lemma {:induction false} NumberMapLast(rs: seq<NodeRecord>, ns: seq<Node3D>)
    requires |rs| == |ns|
    ensures forall j :: LastNumbered(rs, j) ==>
      rs[j].point.number in NumberMap(rs, ns) && NumberMap(rs, ns)[rs[j].point.number] == ns[j]
  {
    if rs != [] {
      var n := |rs| - 1;
      var m := NumberMap(rs[..n], ns[..n]);
      assert NumberMap(rs, ns) == m[rs[n].point.number := ns[n]];
      NumberMapLast(rs[..n], ns[..n]);
      LastNumberedStep(rs, n);
      assert rs[..n + 1] == rs;
      forall j | LastNumbered(rs, j)
        ensures rs[j].point.number in NumberMap(rs, ns) && NumberMap(rs, ns)[rs[j].point.number] == ns[j]
      {
        if j < n {
          assert LastNumbered(rs[..n], j) && rs[..n][j] == rs[j] && ns[..n][j] == ns[j];
        }
      }
    }
  }

  /** Every node `m` maps a number to is listed and carries that number. */
  predicate MapsNumbers(m: map<int, Node3D>, ns: seq<Node3D>)
    reads ns
  {
    forall k :: k in m ==> m[k] in ns && m[k].Number() == k
  }

  /** A map that sends each saved number to the node restored from its last
      entry sends every key to a listed node carrying that number. */
  lemma LastMapNumbers(recs: seq<NodeRecord>, ns: seq<Node3D>, m: map<int, Node3D>)
    requires |ns| == |recs| && m.Keys == Numbers(recs)
    requires forall j :: 0 <= j < |ns| ==> ns[j].dataPoint == recs[j].point
    requires forall j :: LastNumbered(recs, j) ==>
      recs[j].point.number in m && m[recs[j].point.number] == ns[j]
    ensures MapsNumbers(m, ns)
  {
    forall k | k in m
      ensures m[k] in ns && m[k].Number() == k
    {
      var j := LastNumberedOf(recs, k);
    }
  }

  lemma EndsInAppend(ls: seq<Line3D>, m: map<int, Node3D>, rs: seq<LineRecord>, l: Line3D, r: LineRecord)
    requires r.startNumber in m && m[r.startNumber] == l.startNode
    requires r.endNumber in m && m[r.endNumber] == l.endNode
    ensures EndsIn(ls, m, rs) ==> EndsIn(ls + [l], m, rs + [r])
  {
  }

  /** When `m` sends each saved number to the last node restored with it, the
      lines joining the nodes `m` gives for their records are attached to those
      last nodes. */
  lemma EndsAtLastNumbered(recs: seq<NodeRecord>, ns: seq<Node3D>, ls: seq<Line3D>, m: map<int, Node3D>, rs: seq<LineRecord>)
    requires |ns| == |recs| && EndsIn(ls, m, rs) && MapsNumbers(m, ns)
    requires forall j :: LastNumbered(recs, j) ==>
      recs[j].point.number in m && m[recs[j].point.number] == ns[j]
    ensures forall i, j :: 0 <= i < |ls| && LastNumbered(recs, j) ==>
      && (recs[j].point.number == ls[i].startNode.Number() ==> ls[i].startNode == ns[j])
      && (recs[j].point.number == ls[i].endNode.Number() ==> ls[i].endNode == ns[j])
  {
  }

  /** The positions of the nodes, in list order. */
  function Positions(ns: seq<Node3D>): (r: seq<Vec3>)
    reads ns
    ensures |r| == |ns|
  {
    if ns == [] then [] else Positions(ns[..|ns| - 1]) + [ns[|ns| - 1].position]
  }

  lemma {:induction false} PositionsAt(ns: seq<Node3D>)
    ensures forall i :: 0 <= i < |ns| ==> Positions(ns)[i] == ns[i].position
  {
    if ns != [] {
      PositionsAt(ns[..|ns| - 1]);
    }
  }

  /** A box that holds every position holds every node. */
  lemma NodesInBox(ns: seq<Node3D>, lo: Vec3, hi: Vec3)
    requires forall i :: 0 <= i < |Positions(ns)| ==> InBox(Positions(ns)[i], lo, hi)
    ensures forall n :: n in ns ==> InBox(n.position, lo, hi)
  {
    PositionsAt(ns);
    forall n | n in ns
      ensures InBox(n.position, lo, hi)
    {
      var i :| 0 <= i < |ns| && ns[i] == n;
      assert Positions(ns)[i] == n.position;
    }
  }

  /** Between two states, nothing about the nodes but their selection flag
      and colour changed. */
  twostate predicate NodeDataKept(ns: seq<Node3D>)
    reads ns
  {
    forall i :: 0 <= i < |ns| ==>
      && ns[i].dataPoint == old(ns[i].dataPoint) && ns[i].position == old(ns[i].position)
      && ns[i].isVisible == old(ns[i].isVisible) && ns[i].groupId == old(ns[i].groupId)
  }

  /** Ascending by node number (`sorted(..., key=number)`). */
  predicate SortedByNumber(s: seq<Node3D>)
    reads s
  {
    forall i, j :: 0 <= i < j < |s| ==> s[i].Number() <= s[j].Number()
  }

  /** Sortedness depends only on the nodes' own fields. */
  twostate lemma SortedByNumberKept(s: seq<Node3D>)
    requires forall i :: 0 <= i < |s| ==> unchanged(s[i])
    requires old(SortedByNumber(s))
    ensures SortedByNumber(s)
  {
  }

  /** Inserts `n` into a list sorted by number, after every node whose number
      is not larger. */
  function InsertByNumber(s: seq<Node3D>, n: Node3D): (r: seq<Node3D>)
    reads s, n
    ensures multiset(r) == multiset(s) + multiset{n}
  {
    if s == [] then [n]
    else if n.Number() < s[0].Number() then [n] + s
    else
      assert s == [s[0]] + s[1..];
      [s[0]] + InsertByNumber(s[1..], n)
  }

  /** Insertion keeps a list sorted by number. */
  lemma {:induction false} InsertKeepsSorted(s: seq<Node3D>, n: Node3D)
    requires SortedByNumber(s)
    ensures SortedByNumber(InsertByNumber(s, n))
  {
    if s != [] && n.Number() >= s[0].Number() {
      var t := s[1..];
      InsertKeepsSorted(t, n);
      InsertByNumberBound(t, n, s[0].Number());
      var rest := InsertByNumber(t, n);
      var r := InsertByNumber(s, n);
      assert r == [s[0]] + rest;
      forall i, j | 0 <= i < j < |r|
        ensures r[i].Number() <= r[j].Number()
      {
        assert r[j] == rest[j - 1];
        if i > 0 {
          assert r[i] == rest[i - 1];
        }
      }
    }
  }

  /** Inserting a node numbered at least `lo` into a list numbered at least
      `lo` keeps the bound. */
  lemma {:induction false} InsertByNumberBound(s: seq<Node3D>, n: Node3D, lo: int)
    requires lo <= n.Number() && forall k :: 0 <= k < |s| ==> lo <= s[k].Number()
    ensures forall k :: 0 <= k < |InsertByNumber(s, n)| ==> lo <= InsertByNumber(s, n)[k].Number()
  {
    if s != [] && n.Number() >= s[0].Number() {
      InsertByNumberBound(s[1..], n, lo);
    }
  }

  /** Inserting a node not yet present into a list without repeats gives a
      list without repeats. */
  lemma {:induction false} InsertKeepsDistinct(s: seq<Node3D>, n: Node3D)
    requires Distinct(s) && n !in s
    ensures Distinct(InsertByNumber(s, n))
  {
    if s != [] && n.Number() >= s[0].Number() {
      var rest := InsertByNumber(s[1..], n);
      InsertKeepsDistinct(s[1..], n);
      assert s[0] !in s[1..];
      assert s[0] !in rest by {
        assert s[0] !in multiset(s[1..]) + multiset{n};
      }
    }
  }

  /** The endpoint pairs of the lines, in list order. */
  function Ends(ls: seq<Line3D>): (r: seq<(Node3D, Node3D)>)
    ensures |r| == |ls|
    ensures forall i :: 0 <= i < |ls| ==> r[i] == (ls[i].startNode, ls[i].endNode)
  {
    if ls == [] then [] else Ends(ls[..|ls| - 1]) + [(ls[|ls| - 1].startNode, ls[|ls| - 1].endNode)]
  }

  lemma EndsAppend(ls: seq<Line3D>, l: Line3D)
    ensures Ends(ls + [l]) == Ends(ls) + [(l.startNode, l.endNode)]
  {
    assert (ls + [l])[..|ls|] == ls;
  }

  /** One more line whose ends are the next pair extends the matched prefix. */
  lemma EndsStep(added: seq<Line3D>, l: Line3D, pairs: seq<(Node3D, Node3D)>, i: nat)
    requires i < |pairs| && Ends(added) == pairs[..i]
    requires (l.startNode, l.endNode) == pairs[i]
    ensures Ends(added + [l]) == pairs[..i + 1]
  {
    EndsAppend(added, l);
    assert pairs[..i + 1] == pairs[..i] + [pairs[i]];
  }

  /** One more built line of type `t` keeps a list of built `t` lines so. */
  lemma BuiltStep(added: seq<Line3D>, l: Line3D, t: LineType)
    requires AllBuilt(added) && OfType(added, t)
    requires AsBuilt(l) && l.lineType == t
    ensures AllBuilt(added + [l]) && OfType(added + [l], t)
  {
  }

  /** Every line of the list has type `t`. */
  predicate OfType(ls: seq<Line3D>, t: LineType) {
    forall j :: 0 <= j < |ls| ==> ls[j].lineType == t
  }

  /** The open chain through `order`: one pair per consecutive two nodes. */
  function Chain(order: seq<Node3D>): (r: seq<(Node3D, Node3D)>)
    requires |order| >= 1
  {
    seq(|order| - 1, i requires 0 <= i < |order| - 1 => (order[i], order[i + 1]))
  }

  /** What `connect_selected_nodes` links: the chain, closed by a last pair back
      to the first node when there are more than two nodes. */
  function Polyline(order: seq<Node3D>): seq<(Node3D, Node3D)>
    requires |order| >= 2
  {
    Chain(order) + (if |order| > 2 then [(order[|order| - 1], order[0])] else [])
  }

  /** Two nodes give one line; k >= 3 nodes give a closed cycle of k lines in
      which line j runs from the j-th node to the next one, wrapping around. */
  lemma PolylineShape(order: seq<Node3D>)
    requires |order| >= 2
    ensures |Polyline(order)| == if |order| == 2 then 1 else |order|
    ensures forall j :: 0 <= j < |Polyline(order)| ==>
      Polyline(order)[j] == (order[j], order[(j + 1) % |order|])
  {
    var k := |order|;
    forall j | 0 <= j < |Polyline(order)|
      ensures Polyline(order)[j] == (order[j], order[(j + 1) % k])
    {
      if j < k - 1 {
        assert (j + 1) % k == j + 1;
      } else {
        assert (j + 1) % k == 0;
      }
    }
  }

  /** Every pair of the polyline joins two nodes of the order. */
  lemma PolylineWithin(order: seq<Node3D>, within: set<Node3D>)
    requires |order| >= 2 && forall i :: 0 <= i < |order| ==> order[i] in within
    ensures forall j :: 0 <= j < |Polyline(order)| ==>
      Polyline(order)[j].0 in within && Polyline(order)[j].1 in within
  {
    PolylineShape(order);
  }
}

=== FILE: snapshots.dfy ===
/** What `Scene3D.save_state` records and `Scene3D.undo` rebuilds from: value
    snapshots of the scene, the bounded undo history, and the rule by which a
    snapshot's lines are reattached to its nodes by number. */
module Snapshots {
  import opened DataStructures

  /** A saved node: its data point and its selection flag. */
  datatype NodeRecord = NodeRecord(point: DataPoint, isSelected: bool)

  /** A saved line: the numbers of its endpoints and its type. */
  datatype LineRecord = LineRecord(startNumber: int, endNumber: int, lineType: LineType)

  datatype Snapshot = Snapshot(nodes: seq<NodeRecord>, lines: seq<LineRecord>)

  /** `max_history_size`. */
  const MaxHistorySize: nat := 10

  /** The node numbers a snapshot holds. */
  function Numbers(rs: seq<NodeRecord>): set<int> {
    set r | r in rs :: r.point.number
  }

  /** Entry `j` is the last saved node with its number: the entry a dict keyed
      by number keeps when it is filled in saved order. */
  predicate LastNumbered(rs: seq<NodeRecord>, j: int) {
    && 0 <= j < |rs|
    && forall j' :: j < j' < |rs| ==> rs[j'].point.number != rs[j].point.number
  }

  /** Extending the saved nodes by entry `i`: that entry is the last with its
      number, and an earlier entry stays the last with its number exactly when
      entry `i` carries another. */
  lemma LastNumberedStep(rs: seq<NodeRecord>, i: int)
    requires 0 <= i < |rs|
    ensures LastNumbered(rs[..i + 1], i)
    ensures forall j :: 0 <= j < i ==>
      (LastNumbered(rs[..i + 1], j) <==>
       LastNumbered(rs[..i], j) && rs[j].point.number != rs[i].point.number)
  {
  }

  /** Every saved number has a last entry carrying it. */
  lemma {:induction false} LastNumberedOf(rs: seq<NodeRecord>, k: int) returns (j: int)
    requires k in Numbers(rs)
    ensures LastNumbered(rs, j) && rs[j].point.number == k
  {
    var n := |rs| - 1;
    if rs[n].point.number == k {
      j := n;
    } else {
      assert rs == rs[..n] + [rs[n]];
      assert k in Numbers(rs[..n]);
      j := LastNumberedOf(rs[..n], k);
      assert rs[..n][j] == rs[j];
    }
  }

  /** A line record can be reattached when both endpoint numbers are present. */
  predicate Resolvable(l: LineRecord, numbers: set<int>) {
    l.startNumber in numbers && l.endNumber in numbers
  }

  /** Every line of the snapshot can be reattached to its nodes. */
  predicate Closed(s: Snapshot) {
    forall l :: l in s.lines ==> Resolvable(l, Numbers(s.nodes))
  }

  /** The line records `undo` recreates: those that resolve, in saved order. */
  function KeepResolvable(ls: seq<LineRecord>, numbers: set<int>): (r: seq<LineRecord>)
    ensures |r| <= |ls|
    ensures forall l :: l in r <==> l in ls && Resolvable(l, numbers)
  {
    if ls == [] then []
    else (if Resolvable(ls[0], numbers) then [ls[0]] else []) + KeepResolvable(ls[1..], numbers)
  }

  lemma {:induction false} KeepResolvableAppend(ls: seq<LineRecord>, l: LineRecord, numbers: set<int>)
    ensures KeepResolvable(ls + [l], numbers)
            == KeepResolvable(ls, numbers) + (if Resolvable(l, numbers) then [l] else [])
  {
    if ls != [] {
      assert (ls + [l])[1..] == ls[1..] + [l];
      KeepResolvableAppend(ls[1..], l, numbers);
    } else {
      assert ls + [l] == [l];
    }
  }

  /** One more record extends the resolvable lines of the prefix before it. */
  lemma KeepResolvableStep(ls: seq<LineRecord>, i: nat, numbers: set<int>)
    requires i < |ls|
    ensures KeepResolvable(ls[..i + 1], numbers)
            == KeepResolvable(ls[..i], numbers) + (if Resolvable(ls[i], numbers) then [ls[i]] else [])
  {
    assert ls[..i + 1] == ls[..i] + [ls[i]];
    KeepResolvableAppend(ls[..i], ls[i], numbers);
  }

  /** The snapshot of the scene `undo` rebuilds from `s`: the same nodes in the
      same order with the same selection flags, and the lines that resolve. */
  function Restore(s: Snapshot): (r: Snapshot)
    ensures r.nodes == s.nodes && Closed(r)
  {
    Snapshot(s.nodes, KeepResolvable(s.lines, Numbers(s.nodes)))
  }

  lemma {:induction false} KeepAllResolvable(ls: seq<LineRecord>, numbers: set<int>)
    requires forall l :: l in ls ==> Resolvable(l, numbers)
    ensures KeepResolvable(ls, numbers) == ls
  {
    if ls != [] {
      assert ls[0] in ls;
      assert forall l :: l in ls[1..] ==> l in ls;
      KeepAllResolvable(ls[1..], numbers);
    }
  }

  /** Restoring a snapshot whose lines all resolve gives back that very snapshot. */
  lemma RestoreClosed(s: Snapshot)
    requires Closed(s)
    ensures Restore(s) == s
  {
    KeepAllResolvable(s.lines, Numbers(s.nodes));
  }

  /** The last `n` entries of `h` (all of it when shorter). */
  function Newest<T>(h: seq<T>, n: nat): (r: seq<T>)
    ensures |r| <= n && |r| <= |h|
  {
    if |h| <= n then h else h[|h| - n..]
  }

  /** `save_state`'s history update: append, then drop the oldest entry once
      the history is longer than `MaxHistorySize`. */
  function Push(h: seq<Snapshot>, s: Snapshot): (r: seq<Snapshot>)
    ensures |h| <= MaxHistorySize ==> r == Newest(h + [s], MaxHistorySize)
    ensures r != [] && r[|r| - 1] == s
  {
    var appended := h + [s];
    if |appended| > MaxHistorySize then appended[1..] else appended
  }

  /** `save_state` applied once per snapshot, in order. */
  function PushAll(h: seq<Snapshot>, ss: seq<Snapshot>): seq<Snapshot>
    decreases |ss|
  {
    if ss == [] then h else PushAll(Push(h, ss[0]), ss[1..])
  }

  /** Taking the newest entries commutes with appending one more. */
  lemma NewestAppend<T>(h: seq<T>, s: T, n: nat)
    ensures Newest(Newest(h, n) + [s], n) == Newest(h + [s], n)
  {
    if |h| > n && n > 0 {
      assert Newest(h, n) + [s] == (h + [s])[|h| - n..];
      assert (h + [s])[|h| - n..][1..] == (h + [s])[|h| + 1 - n..];
    }
  }

  /** However many snapshots are saved, the history holds exactly the newest
      `MaxHistorySize` of everything saved, oldest first. */
  lemma {:induction false} PushAllKeepsNewest(h: seq<Snapshot>, ss: seq<Snapshot>)
    requires |h| <= MaxHistorySize
    ensures PushAll(h, ss) == Newest(h + ss, MaxHistorySize)
    decreases |ss|
  {
    if ss == [] {
      assert h + ss == h;
    } else {
      var h' := Push(h, ss[0]);
      assert h' == Newest(h + [ss[0]], MaxHistorySize) && |h'| <= MaxHistorySize;
      PushAllKeepsNewest(h', ss[1..]);
      AppendFirst(h, ss);
      NewestConcat(h + [ss[0]], ss[1..], MaxHistorySize);
    }
  }

  lemma AppendFirst<T>(h: seq<T>, ss: seq<T>)
    requires ss != []
    ensures h + ss == (h + [ss[0]]) + ss[1..]
  {
    assert ss == [ss[0]] + ss[1..];
  }

  lemma {:induction false} NewestConcat<T>(h: seq<T>, ss: seq<T>, n: nat)
    ensures Newest(Newest(h, n) + ss, n) == Newest(h + ss, n)
    decreases |ss|
  {
    if ss == [] {
      assert Newest(h, n) + ss == Newest(h, n);
      assert h + ss == h;
      if |h| > n {
        assert |Newest(h, n)| == n;
      }
    } else {
      var last := ss[|ss| - 1];
      var init := ss[..|ss| - 1];
      assert ss == init + [last];
      assert Newest(h, n) + ss == (Newest(h, n) + init) + [last];
      assert h + ss == (h + init) + [last];
      NewestConcat(h, init, n);
      NewestAppend(Newest(h, n) + init, last, n);
      NewestAppend(h + init, last, n);
    }
  }

  /** Fifteen saves into an empty history leave exactly the last ten. */
  lemma FifteenSavesKeepTen(ss: seq<Snapshot>)
    requires |ss| == 15
    ensures PushAll([], ss) == ss[5..]
  {
    PushAllKeepsNewest([], ss);
    assert [] + ss == ss;
  }
}

=== FILE: text.dfy ===
/** String helpers used by the command classifier and the panel mapping:
    Python's `str.strip`, `str.lower`, `str.split` (no arguments), `str.startswith`,
    decimal formatting of integers (`str(int)`, `f"{n:04d}"`) and its inverse. */
module Text {

  /** Whitespace as Python's `str.strip()` / `str.split()` see it, restricted to ASCII. */
  predicate IsSpace(c: char) {
    c == ' ' || c == '\t' || c == '\n' || c == '\r' || c == '\U{0B}' || c == '\U{0C}'
    || ('\U{1C}' <= c <= '\U{1F}')
  }

  predicate NoSpace(s: string) {
    forall i :: 0 <= i < |s| ==> !IsSpace(s[i])
  }

  /** No leading and no trailing whitespace. */
  predicate Stripped(s: string) {
    s == [] || (!IsSpace(s[0]) && !IsSpace(s[|s| - 1]))
  }

  predicate HasPrefix(s: string, p: string) {
    |p| <= |s| && s[..|p|] == p
  }

  function TrimLeft(s: string): (r: string)
    ensures r == [] || !IsSpace(r[0])
    ensures |r| <= |s|
    ensures r != [] ==> r[|r| - 1] == s[|s| - 1]
  {
    if s != [] && IsSpace(s[0]) then TrimLeft(s[1..]) else s
  }

  function TrimRight(s: string): (r: string)
    ensures r == [] || !IsSpace(r[|r| - 1])
    ensures |r| <= |s|
    ensures r != [] ==> r[0] == s[0]
  {
    if s != [] && IsSpace(s[|s| - 1]) then TrimRight(s[..|s| - 1]) else s
  }

  /** `s.strip()`: the longest infix of `s` without surrounding whitespace. */
  function Strip(s: string): (r: string)
    ensures Stripped(r)
    ensures |r| <= |s|
  {
    TrimRight(TrimLeft(s))
  }

  lemma {:induction false} TrimLeftDrops(s: string)
    ensures TrimLeft(s) == s[|s| - |TrimLeft(s)|..]
    ensures forall k :: 0 <= k < |s| - |TrimLeft(s)| ==> IsSpace(s[k])
  {
    if s != [] && IsSpace(s[0]) {
      TrimLeftDrops(s[1..]);
    }
  }

  lemma {:induction false} TrimRightDrops(s: string)
    ensures TrimRight(s) == s[..|TrimRight(s)|]
    ensures forall k :: |TrimRight(s)| <= k < |s| ==> IsSpace(s[k])
  {
    if s != [] && IsSpace(s[|s| - 1]) {
      TrimRightDrops(s[..|s| - 1]);
    }
  }

  /** Stripping keeps one infix of `s` and drops only whitespace before and after it. */
  lemma {:induction false} StripInfix(s: string)
    ensures var r := Strip(s);
            var i := |s| - |TrimLeft(s)|;
            && i + |r| <= |s| && r == s[i..i + |r|]
            && (forall k :: 0 <= k < i ==> IsSpace(s[k]))
            && (forall k :: i + |r| <= k < |s| ==> IsSpace(s[k]))
  {
    var t := TrimLeft(s);
    var r := TrimRight(t);
    var i := |s| - |t|;
    TrimLeftDrops(s);
    TrimRightDrops(t);
    assert t == s[i..];
    assert r == t[..|r|];
    assert s[i..][..|r|] == s[i..i + |r|];
    forall k | i + |r| <= k < |s|
      ensures IsSpace(s[k])
    {
      assert s[k] == t[k - i];
    }
  }

  /** Stripping a string that has no surrounding whitespace changes nothing. */
  lemma StripStripped(s: string)
    requires Stripped(s)
    ensures Strip(s) == s
  {
  }

  function LowerChar(c: char): char {
    if 'A' <= c <= 'Z' then (c as int - 'A' as int + 'a' as int) as char else c
  }

  /** `s.lower()` on ASCII letters. */
  function Lower(s: string): (r: string)
    ensures |r| == |s|
    ensures forall i :: 0 <= i < |s| ==> r[i] == LowerChar(s[i])
  {
    if s == [] then [] else [LowerChar(s[0])] + Lower(s[1..])
  }

  /** Lower-casing keeps every character's whitespace status, so it keeps a
      stripped string stripped and commutes with stripping. */
  lemma {:induction false} LowerKeepsStripped(s: string)
    requires Stripped(s)
    ensures Stripped(Lower(s))
  {
    if s != [] {
      assert Lower(s)[0] == LowerChar(s[0]);
      assert Lower(s)[|s| - 1] == LowerChar(s[|s| - 1]);
    }
  }

  /** No capital ASCII letter. */
  predicate NoCapitals(s: string) {
    forall i :: 0 <= i < |s| ==> !('A' <= s[i] <= 'Z')
  }

  /** Stripping keeps a text free of capitals: it only drops characters. */
  lemma StripKeepsNoCapitals(s: string)
    ensures NoCapitals(s) ==> NoCapitals(Strip(s))
  {
    StripInfix(s);
  }

  /** Lower-casing twice is lower-casing once. */
  lemma LowerIdempotent(s: string)
    ensures Lower(Lower(s)) == Lower(s)
  {
    assert forall i :: 0 <= i < |s| ==> Lower(Lower(s))[i] == Lower(s)[i];
  }

  function DropSpaces(s: string): (r: string)
    ensures r == [] || !IsSpace(r[0])
    ensures |r| <= |s|
  {
    if s != [] && IsSpace(s[0]) then DropSpaces(s[1..]) else s
  }

  lemma {:induction false} DropSpacesSuffix(s: string)
    ensures DropSpaces(s) == s[|s| - |DropSpaces(s)|..]
  {
    if s != [] && IsSpace(s[0]) {
      DropSpacesSuffix(s[1..]);
    }
  }

  function TakeWord(s: string): (r: string)
    ensures |r| <= |s| && NoSpace(r)
    ensures s != [] && !IsSpace(s[0]) ==> |r| >= 1
  {
    if s == [] || IsSpace(s[0]) then [] else [s[0]] + TakeWord(s[1..])
  }

  lemma {:induction false} TakeWordPrefix(s: string)
    ensures TakeWord(s) == s[..|TakeWord(s)|]
  {
    if s != [] && !IsSpace(s[0]) {
      TakeWordPrefix(s[1..]);
    }
  }

  /** `s.split()`: the maximal runs of non-whitespace characters, in order.
      Every token is a non-empty run without whitespace; `SplitWord` and
      `SplitAtSpace` show the runs are maximal. */
  function Split(s: string): (r: seq<string>)
    ensures forall w :: w in r ==> w != [] && NoSpace(w)
    decreases |s|
  {
    var t := DropSpaces(s);
    if t == [] then []
    else
      var w := TakeWord(t);
      [w] + Split(t[|w|..])
  }

  /** A whole text without whitespace is its own leading word. */
  lemma {:induction false} TakeWordAll(w: string)
    requires NoSpace(w)
    ensures TakeWord(w) == w
  {
    if w != [] {
      assert NoSpace(w[1..]) by {
        assert forall i :: 0 <= i < |w| - 1 ==> w[1..][i] == w[i + 1];
      }
      TakeWordAll(w[1..]);
    }
  }

  /** The leading word ends before the first whitespace, so whatever follows
      that whitespace does not change it. */
  lemma {:induction false} TakeWordAppend(t: string, x: string)
    requires (x != [] && IsSpace(x[0])) || |TakeWord(t)| < |t|
    ensures TakeWord(t + x) == TakeWord(t)
  {
    if t == [] {
      assert t + x == x;
    } else if IsSpace(t[0]) {
      assert (t + x)[0] == t[0];
    } else {
      assert (t + x)[0] == t[0] && (t + x)[1..] == t[1..] + x;
      TakeWordAppend(t[1..], x);
    }
  }

  /** Dropping the leading whitespace of a concatenation. */
  lemma {:induction false} DropSpacesAppend(a: string, x: string)
    ensures DropSpaces(a) != [] ==> DropSpaces(a + x) == DropSpaces(a) + x
    ensures DropSpaces(a) == [] ==> DropSpaces(a + x) == DropSpaces(x)
  {
    if a == [] {
      assert a + x == x;
    } else {
      assert (a + x)[0] == a[0] && (a + x)[1..] == a[1..] + x;
      if IsSpace(a[0]) {
        DropSpacesAppend(a[1..], x);
      }
    }
  }

  /** A non-empty text without whitespace is one token. */
  lemma SplitWord(w: string)
    requires w != [] && NoSpace(w)
    ensures Split(w) == [w]
  {
    TakeWordAll(w);
    assert w[|w|..] == [];
  }

  /** Any whitespace character separates tokens: the tokens of `a + [c] + b`
      are those of `a` followed by those of `b`. With `SplitWord` and
      `Split([]) == []` this fixes every token boundary. */
  lemma SplitAtSpace(a: string, c: char, b: string)
    requires IsSpace(c)
    ensures Split(a + [c] + b) == Split(a) + Split(b)
  {
    var x := [c] + b;
    assert a + [c] + b == a + x && x[1..] == b;
    SplitBeforeSpace(a, x);
  }

  /** `SplitAtSpace` with the whitespace leading the second part. */
  lemma {:induction false} SplitBeforeSpace(a: string, x: string)
    requires x != [] && IsSpace(x[0])
    ensures Split(a + x) == Split(a) + Split(x[1..])
    decreases |a|
  {
    DropSpacesAppend(a, x);
    var t := DropSpaces(a);
    if t == [] {
      assert DropSpaces(x) == DropSpaces(x[1..]);
    } else {
      var w := TakeWord(t);
      var rest := t[|w|..];
      SplitAfterWord(t, x);
      SplitBeforeSpace(rest, x);
    }
  }

  /** A text starting with a word: the word is the first token and splitting
      goes on after it. */
  lemma SplitAfterWord(t: string, x: string)
    requires t != [] && !IsSpace(t[0]) && x != [] && IsSpace(x[0])
    ensures Split(t + x) == [TakeWord(t)] + Split(t[|TakeWord(t)|..] + x)
  {
    var w := TakeWord(t);
    assert (t + x)[0] == t[0];
    TakeWordAppend(t, x);
    assert (t + x)[|w|..] == t[|w|..] + x;
  }

  /** The characters of `s` other than whitespace, in order. */
  function NonSpace(s: string): string {
    if s == [] then [] else (if IsSpace(s[0]) then [] else [s[0]]) + NonSpace(s[1..])
  }

  function Concat(ws: seq<string>): string {
    if ws == [] then [] else ws[0] + Concat(ws[1..])
  }

  lemma {:induction false} NonSpaceAppend(a: string, b: string)
    ensures NonSpace(a + b) == NonSpace(a) + NonSpace(b)
  {
    if a != [] {
      assert (a + b)[0] == a[0] && (a + b)[1..] == a[1..] + b;
      NonSpaceAppend(a[1..], b);
    } else {
      assert a + b == b;
    }
  }

  lemma {:induction false} NonSpaceOfSpaces(s: string)
    requires forall i :: 0 <= i < |s| ==> IsSpace(s[i])
    ensures NonSpace(s) == []
  {
    if s != [] { NonSpaceOfSpaces(s[1..]); }
  }

  lemma {:induction false} NonSpaceOfWord(s: string)
    requires NoSpace(s)
    ensures NonSpace(s) == s
  {
    if s != [] { NonSpaceOfWord(s[1..]); }
  }

  /** Splitting loses exactly the whitespace: gluing the tokens back together
      gives every other character of the input, in order. */
  lemma {:induction false} SplitKeepsText(s: string)
    ensures Concat(Split(s)) == NonSpace(s)
    decreases |s|
  {
    var t := DropSpaces(s);
    NonSpaceDropSpaces(s);
    if t != [] {
      var w := TakeWord(t);
      NonSpaceTakeWord(t);
      SplitKeepsText(t[|w|..]);
    }
  }

  /** Leading whitespace contributes nothing to the non-whitespace text. */
  lemma NonSpaceDropSpaces(s: string)
    ensures NonSpace(DropSpaces(s)) == NonSpace(s)
  {
    var t := DropSpaces(s);
    DropSpacesSuffix(s);
    assert s == s[..|s| - |t|] + t;
    assert forall i :: 0 <= i < |s| - |t| ==> IsSpace(s[i]) by {
      DropSpacesPrefix(s);
    }
    NonSpaceAppend(s[..|s| - |t|], t);
    NonSpaceOfSpaces(s[..|s| - |t|]);
  }

  /** A leading word is kept whole in the non-whitespace text. */
  lemma NonSpaceTakeWord(t: string)
    ensures NonSpace(t) == TakeWord(t) + NonSpace(t[|TakeWord(t)|..])
  {
    var w := TakeWord(t);
    TakeWordPrefix(t);
    assert t == w + t[|w|..];
    NonSpaceAppend(w, t[|w|..]);
    NonSpaceOfWord(w);
  }

  lemma {:induction false} DropSpacesPrefix(s: string)
    ensures forall i :: 0 <= i < |s| - |DropSpaces(s)| ==> IsSpace(s[i])
  {
    if s != [] && IsSpace(s[0]) {
      DropSpacesPrefix(s[1..]);
    }
  }

  // ----- decimal formatting -----

  function DigitChar(d: nat): char
    requires d < 10
  {
    "0123456789"[d]
  }

  function DigitValue(c: char): nat {
    if '0' <= c <= '9' then c as int - '0' as int else 0
  }

  predicate AllDigits(s: string) {
    forall i :: 0 <= i < |s| ==> '0' <= s[i] <= '9'
  }

  /** Decimal digits of `n` without leading zeros (`str(n)` for n >= 0). */
  function Digits(n: nat): (r: string)
    ensures |r| >= 1 && AllDigits(r)
  {
    if n < 10 then [DigitChar(n)] else Digits(n / 10) + [DigitChar(n % 10)]
  }

  /** Ten to the power `k`. */
  function Pow10(k: nat): (r: nat)
    ensures r >= 1
  {
    if k == 0 then 1 else 10 * Pow10(k - 1)
  }

  /** A number below `10^k` has at most `k` decimal digits. */
  lemma {:induction false} DigitsFit(n: nat, k: nat)
    requires k >= 1 && n < Pow10(k)
    ensures |Digits(n)| <= k
  {
    if n >= 10 {
      DigitsFit(n / 10, k - 1);
    }
  }

  /** `str(n)` for any integer. */
  function IntToString(n: int): string {
    if n < 0 then "-" + Digits(-n) else Digits(n)
  }

  /** How to read `str(n)` back: a leading '-' marks a negative number and
      the digits give its magnitude. */
  lemma {:induction false} IntToStringValue(n: int)
    ensures IntToString(n)[0] == '-' <==> n < 0
    ensures n < 0 ==> Value(IntToString(n)[1..]) == -n
    ensures n >= 0 ==> Value(IntToString(n)) == n
  {
    var d := if n < 0 then Digits(-n) else Digits(n);
    assert '0' <= d[0] <= '9';
    DigitsValue(if n < 0 then -n else n);
    if n < 0 {
      assert IntToString(n)[1..] == d;
    }
  }

  /** `str` is one-to-one on integers: the text gives the number back. */
  lemma IntToStringInjective(a: int, b: int)
    ensures IntToString(a) == IntToString(b) <==> a == b
  {
    IntToStringValue(a);
    IntToStringValue(b);
  }

  /** `str(n)` is an optional '-' and digits, so it holds no '_'. */
  lemma IntToStringNoUnderscore(n: int)
    ensures '_' !in IntToString(n)
  {
    var d := if n < 0 then Digits(-n) else Digits(n);
    assert forall i :: 0 <= i < |d| ==> '0' <= d[i] <= '9';
    if n < 0 {
      assert IntToString(n) == "-" + d;
    }
  }

  /** Two texts joined at a separator that neither first part contains are
      joined at the same place, so both parts agree. */
  lemma SeparatorSplits(x: string, y: string, u: string, v: string, sep: char)
    requires sep !in x && sep !in u
    requires x + [sep] + y == u + [sep] + v
    ensures x == u && y == v
  {
    var s := x + [sep] + y;
    assert forall i :: 0 <= i < |x| ==> s[i] == x[i] != sep;
    assert forall i :: 0 <= i < |u| ==> s[i] == u[i] != sep;
    assert s[|x|] == sep && s[|u|] == sep;
    assert |x| == |u|;
    assert x == s[..|x|] && u == s[..|u|];
    assert y == s[|x| + 1..] && v == s[|u| + 1..];
  }

  /** `k` zero characters. */
  function Zeros(k: nat): (r: string)
    ensures |r| == k && forall i :: 0 <= i < k ==> r[i] == '0'
  {
    seq(k, _ => '0')
  }

  /** Left-pads `s` with '0' up to `width` characters; longer strings are kept whole,
      as Python's `{:0Nd}` format does. */
  function ZeroPad(s: string, width: nat): (r: string)
    ensures |r| == if |s| < width then width else |s|
    ensures r[|r| - |s|..] == s
    ensures forall i :: 0 <= i < |r| - |s| ==> r[i] == '0'
  {
    if |s| < width then Zeros(width - |s|) + s else s
  }

  /** The number a string of decimal digits denotes. */
  function Value(s: string): nat {
    if s == [] then 0 else Value(s[..|s| - 1]) * 10 + DigitValue(s[|s| - 1])
  }

  lemma {:induction false} DigitsValue(n: nat)
    ensures Value(Digits(n)) == n
  {
    if n >= 10 {
      var d := Digits(n / 10) + [DigitChar(n % 10)];
      assert d[..|d| - 1] == Digits(n / 10);
      DigitsValue(n / 10);
      assert DigitValue(DigitChar(n % 10)) == n % 10;
      assert Value(d) == (n / 10) * 10 + n % 10;
    }
  }

  /** A leading zero does not change the value of a digit string. */
  lemma {:induction false} ValueLeadingZero(s: string)
    ensures Value("0" + s) == Value(s)
    decreases |s|
  {
    if s != [] {
      var t := "0" + s;
      assert t[..|t| - 1] == "0" + s[..|s| - 1];
      ValueLeadingZero(s[..|s| - 1]);
    }
  }

  lemma {:induction false} ValueZeros(k: nat, s: string)
    ensures Value(Zeros(k) + s) == Value(s)
  {
    if k == 0 {
      assert Zeros(k) + s == s;
    } else {
      var t := Zeros(k - 1) + s;
      assert Zeros(k) == "0" + Zeros(k - 1);
      assert Zeros(k) + s == "0" + t;
      ValueLeadingZero(t);
      ValueZeros(k - 1, s);
      assert Value(Zeros(k) + s) == Value("0" + t) == Value(t);
    }
  }

  lemma ValueZeroPad(s: string, width: nat)
    ensures Value(ZeroPad(s, width)) == Value(s)
  {
    if |s| < width {
      ValueZeros(width - |s|, s);
    }
  }

  /** Zero-padded decimal formatting loses nothing: the padded text still denotes `n`. */
  lemma PaddedDigitsValue(n: nat, width: nat)
    ensures Value(ZeroPad(Digits(n), width)) == n
  {
    ValueZeroPad(Digits(n), width);
    DigitsValue(n);
  }
}
